=== FILE: README.md ===
# Log-line parser, court filter and time digit-sum in Dafny

The repository contains three small Python exercises. This project models the
pure logic of each one and proves properties about it.

- **Log-line parser** (`test_1.py`). A log line is a header of space-separated
  fields, the delimiter `" :"` and a free-text message. The parser finds the
  message after the first delimiter. It finds the timestamp: the first adjacent
  date and time in the header that `strptime` accepts as `%d/%m/%y` and
  `%H:%M:%S`. It finds the level: the first header field among `INFO`, `TRACE`
  and `WARNING`. `is_log_line` requires all three. It then deletes every
  occurrence of each from the stripped line (message, then timestamp, then
  level) and accepts the line only when nothing but white space is left.
  `get_dict` builds the record of the three parts.
- **Court filter** (`test_2.py`, `format_court_data`). Courts come from the
  court finder API as JSON dicts. The filter keeps those whose `types` list
  contains the wanted type and whose `distance` is present and not null. Each
  kept court is reduced to `name`, `dx_number` (both defaulting to `""`) and
  `distance`.
- **Time digit-sum** (`test_3.py`, `sum_current_time`). The function splits a
  time string at `:` and sums the fields with `int()`. With verification on, a
  string that is not a valid `%H:%M:%S` time gives -1.

Modules:
- `Wrappers`: the `Option` type.
- `Strings`: the Python `str` operations the scripts use: `isspace`, `strip`,
  `in`, `find`, `split`, `join` and `replace`.
- `Numbers`: ASCII digits and `int()` on strings.
- `TimeFormat`: the two `strptime` formats as predicates.
- `LogParser`: `test_1.py`.
- `Courts`: `test_2.py`.
- `TimeSum`: `test_3.py`.

The `strptime` predicates follow the regular expressions CPython compiles for
each directive:
- `%d`: 1–31, or a space and a digit 1–9.
- `%m`: 1–12.
- `%y`: two digits; 00–68 are 2000–2068, 69–99 are 1969–1999.
- `%H` 0–23, `%M` 0–59, `%S` 0–59, each one or two digits.

The day must also exist in its month, with Gregorian leap years. The `%H`
pattern `2[0-3]|[0-1]\d|\d` accepts a single digit, so one-digit hours count
as valid: `8:10:59` is accepted.

Python results are modelled as values:
- A ValueError or TypeError becomes `None`.
- `is_log_line` returns `True` or `None`; here it is a `bool`.
- A Python dict result becomes a datatype (`LogRecord`) or a map from keys to
  JSON values (`Courts.Court`).

Three behaviours of the code that are easy to miss:
- `is_log_line` removes the parts with `str.replace` (test_1.py:102-104),
  which deletes every occurrence; the model does the same.
- `validate_timestamp` uses `strptime`, which accepts a one-digit hour.
- `int()` skips ASCII white space and non-ASCII white space around a
  numeral, but not the separators U+001C to U+001F that `str.isspace`
  counts as white space; `Numbers.ParseInt` follows `int()`.

## Model

| member | source | states |
|---|---|---|
| Strings.Strip | test_1.py:88 | `str.strip()`: the result neither starts nor ends with white space |
| Strings.StripBothEnds | test_1.py:88 | stripping both ends at once is the same as `lstrip` then `rstrip` |
| Strings.StripPiece | test_1.py:88 | the stripped line is one contiguous piece of the line, and only white space lies around it |
| Strings.StripEmptyIffBlank | test_1.py:23 | `s.strip()` is empty (falsy) exactly when every character of `s` is white space |
| Strings.Contains | test_1.py:19 | `p in s` on strings: `p` occurs at some position of `s`; `Strings.IndexOf` finds a position exactly when it holds, and `Strings.ContainsInPiece` shows an occurrence in a slice is one in the whole |
| Strings.IndexOf | test_1.py:19 | `" :" in line`: present exactly when it occurs, and the index returned is the first occurrence |
| Strings.Split | test_1.py:22 | `str.split` yields at least one piece, and `d.join(s.split(d))` gives back `s` |
| Strings.SplitPiecesLackSeparator | test_1.py:49 | no piece of a split contains the separator |
| Strings.SplitFirstPiece | test_1.py:22 | the first piece is the text before the first separator; the other pieces join back to the text after it |
| Strings.Join | test_1.py:22 | `d.join(parts)`: with `Split` it completes the round trip `d.join(s.split(d)) == s` (the ensures of `Strings.Split`), and three parts join as `a + d + b + d + c` (`TimeFormat.JoinThree`) |
| Strings.ReplaceAll | test_1.py:102-104 | `s.replace(p, q)`: `Strings.ReplaceAllIsJoinOfSplit` proves it equal to `q.join(s.split(p))`, and `Strings.ReplaceAllAbsent` shows an absent pattern changes nothing |
| Strings.ReplaceAllIsJoinOfSplit | test_1.py:102-104 | `s.replace(p, q)` (every occurrence, left to right) equals `q.join(s.split(p))` for every input |
| Strings.ReplaceAllAbsent | test_1.py:102-104 | replacing a pattern that does not occur leaves the text unchanged |
| Numbers.ParseInt | test_3.py:27 | `int(num)`: an optional sign and digit groups between the white space `int()` skips; `Numbers.ParseIntFacts` and `Numbers.SeparatorNotSkipped` state what it accepts |
| Numbers.ParseIntFacts | test_3.py:27 | `int()` of a non-empty digit string is its decimal value; `int()` of a blank string raises |
| Numbers.StripIntSpaceKeepsFirst | test_3.py:27 | a string whose first character is not white space `int()` skips keeps that character first after `int()`'s stripping, whatever trails it |
| Numbers.NonNumeralRaises | test_3.py:27 | `int()` raises on a string that starts with neither a white-space character `int()` skips, a sign nor a digit, whatever follows |
| Numbers.SeparatorNotSkipped | test_3.py:27 | `int("\x1c5")` raises, because `int()` does not skip U+001C, while a leading no-break space is skipped and `int("\xa05")` is 5 |
| TimeFormat.IsValidTime | test_1.py:36 | `strptime(s, "%H:%M:%S")` succeeds; `TimeFormat.TimeFromFields` characterises it field by field |
| TimeFormat.IsValidDate | test_1.py:35 | `strptime(s, "%d/%m/%y")` succeeds; `TimeFormat.DateFromFields` characterises it field by field |
| TimeFormat.TimeFromFields | test_1.py:36 | `strptime(s, "%H:%M:%S")` succeeds exactly when the three colon-separated fields are an hour, a minute and a second in range |
| TimeFormat.DateFromFields | test_1.py:35 | `strptime(s, "%d/%m/%y")` succeeds exactly when the three slash-separated fields are a day, month and year, and the day exists in that month |
| TimeFormat.LeapYearIffMultipleOfFour | test_1.py:35 | a two-digit year is a leap year exactly when it is a multiple of four, on both sides of the 1969/2068 century window |
| TimeFormat.ParseTime | test_3.py:22 | `strptime` parses exactly the valid times, and every parsed field is in range |
| TimeFormat.FormatTime | test_3.py:9 | `strftime("%H:%M:%S")` writes a valid time that parses back to the same clock time |
| LogParser.GetMessage | test_1.py:14-26 | no delimiter gives `""`; otherwise the message is `":"` and everything after the first delimiter, or `""` when that is blank |
| LogParser.HeaderFields | test_1.py:49 | `line.split(" :")[0].split(" ")`, shared by both header searches; `LogParser.HeaderFieldsSpell` states what the fields are |
| LogParser.HeaderFieldsSpell | test_1.py:49 | the header fields are never empty as a list, contain no space, and join with spaces back to the text before the first `" :"` (the whole line when there is none) |
| LogParser.ValidateTimestamp | test_1.py:29-39 | both `strptime` calls succeed: the date satisfies `TimeFormat.IsValidDate` and the time `TimeFormat.IsValidTime`, so any ValueError gives False |
| LogParser.GetTimestamp | test_1.py:42-59 | no timestamp exactly when no adjacent pair of header fields is a valid date followed by a valid time |
| LogParser.TimestampAt | test_1.py:49-57 | the timestamp is `date + " " + time` at the first valid pair of header fields |
| LogParser.GetLoggingLevel | test_1.py:62-74 | the level found is a valid level; none is found exactly when no header field is one |
| LogParser.LevelAt | test_1.py:67-74 | the level is the first header field that is a valid level |
| LogParser.IsLogLine | test_1.py:84-110 | a log line has a message, a timestamp and a level, and contains the delimiter |
| LogParser.GetDict | test_1.py:118-132 | the level is valid, the message is empty or starts with `":"`, and a log line's record has all three parts |
| LogParser.DelimitedLine | test_1.py:19-26 | for `h + " :" + r` with `h` free of the delimiter: the header fields are `h` split at spaces, and the message is `":" + r` unless `r` is blank |
| LogParser.UndelimitedLine | test_1.py:19-20 | a line without the delimiter has no message, and all of it is header |
| LogParser.MessageNeverAffectsHeader | test_1.py:49-74 | the text after the delimiter never changes the timestamp or the level, so a level word in the message is never returned |
| LogParser.NoDelimiterNoLogLine | test_1.py:88-92 | a line without `" :"` is not a log line, and its record's message is empty |
| LogParser.StripDelimitedLine | test_1.py:88 | for a header that starts with a non-space character, stripping a line keeps its header and delimiter; a blank message vanishes and otherwise only its trailing space goes |
| LogParser.LogLineOfParts | test_1.py:88-110 | with the three parts found, the line is a log line exactly when removing all of them in order leaves only white space |
| LogParser.FormattedLine | test_1.py:88-132 | for `date time level extra :message`, with extra words free of `:` and `/` and a message that does not start with a digit, the record holds the timestamp, the level and the message, and the line is a log line exactly when deleting every occurrence of the level from the extra words leaves only white space |
| LogParser.FormatParseRoundTrip | test_1.py:118-132 | a line written as `date time level :message` is a log line, and `get_dict` gives back the timestamp, the level and the message |
| LogParser.ExtraWordRejected | test_1.py:102-108 | an extra header word that lacks the level's first letter makes the line invalid, though `get_dict` still reads all three parts |
| LogParser.RepeatedLevelAccepted | test_1.py:104-107 | a header with the level written twice is still accepted, because every copy is removed |
| LogParser.BlankMessageRejected | test_1.py:23-24 | for a header that starts with a non-space character and has no `" :"` in it, nothing but white space after the delimiter means no message and not a log line |
| LogParser.BlankFormattedRejected | test_1.py:90-92 | a well-formed header with a blank message is rejected, and its record's message is empty |
| LogParser.LevelLessRejected | test_1.py:98-100 | a header without a valid level is rejected, and the record has no level |
| LogParser.TimestampLessRejected | test_1.py:94-96 | a header without a valid adjacent date and time is rejected, and the record has no timestamp |
| LogParser.DateAndTimeOnlyRejected | test_1.py:98-100 | a header of a date-like word and a time-like word only has no level and is rejected |
| LogParser.TimestampOnlyRejected | test_1.py:94-100 | a valid timestamp followed directly by the delimiter, with no level, is rejected |
| LogParser.FirstSampleLine | test_1.py:175-180 | the first line of the sample log, with its newline, is a log line whose record is the one `test_step_2` expects |
| LogParser.NoLevelSample | test_1.py:98-100 | `"03/11/21 08:51:01 :hello"` is not a log line |
| LogParser.BlankMessageSample | test_1.py:23-24 | `"03/11/21 08:51:01 INFO : "` is not a log line, and its message is empty |
| LogParser.ExtraWordSample | test_1.py:102-108 | `"03/11/21 08:51:01 INFO EXTRA :msg"` is not a log line |
| Courts.Keep | test_2.py:103 | a court passes the test only if it has a distance that is not null |
| Courts.Project | test_2.py:106-110 | the reduced court has exactly `name`, `dx_number` and `distance`; the first two default to `""` and the distance is copied |
| Courts.FormatCourtData | test_2.py:96-112 | the filtered list is never longer than the input |
| Courts.Get | test_2.py:103-108 | `dict.get(key, default)`: the stored value when the key is present, the default otherwise; `Courts.Project` and `Courts.Keep` rely on it for the `""`, `[]` and `None` defaults |
| Courts.Membership | test_2.py:103 | Python's `in`: raises (TypeError) exactly when the container is not a list, a string or a dict |
| Courts.FormatRaisesIff | test_2.py:103 | the function raises exactly when the `in` test raises on some court (a `types` value that is neither a list, a string nor a dict) |
| Courts.FormatShape | test_2.py:106-110 | every output court has exactly the three projected keys and a distance that is not null |
| Courts.FormatMembers | test_2.py:102-110 | a court is in the output exactly when it is the projection of an input court that has the wanted type and a distance |
| Courts.FormatAppend | test_2.py:102-112 | filtering a concatenation concatenates the filtered parts, so kept courts keep their relative order |
| Courts.UntypedCourtRemoved | test_2.py:103-104 | a court without `types` is removed |
| Courts.DistanceLessCourtRemoved | test_2.py:103-104 | a court with a list of types whose distance is absent or null is removed |
| Courts.WantedCourtKept | test_2.py:105-110 | a court with the wanted type and a distance is kept, reduced to its projection |
| Courts.FormatTwiceEmpties | test_2.py:96-112 | filtering the output again removes everything, because reduced courts have no `types` |
| Courts.Rewrite | test_2.py:101-110 | the loop replaces courts in place, so the list keeps its length |
| Courts.RewriteContents | test_2.py:101-110 | the loop raises exactly when some `in` test raises; otherwise each position holds the kept court's projection or the rejected court itself, and the queue lists the rejected courts in input order |
| Courts.RemoveFirst | test_2.py:112 | `list.remove` raises exactly when the value is absent, and otherwise removes one element |
| Courts.RemoveFirstTakesFirst | test_2.py:112 | the element `list.remove` takes out is the first one equal to the value; the elements before and after it keep their order |
| Courts.RemoveEach | test_2.py:111-112 | removing each queued court in turn shortens the list by the number of removals |
| Courts.FormatCourtDataAsWritten | test_2.py:96-112 | the function as written, loop then removals: it shortens the list by exactly the number of rejected courts |
| Courts.QueuedAreRemoved | test_2.py:101-104 | every court queued for removal is an input court that failed the test |
| Courts.AsWrittenAgrees | test_2.py:111-112 | when no rejected court equals a kept court's projection, the in-place code gives the filtered list |
| Courts.TypedCourtsAgree | test_2.py:111-112 | when every court has `types`, as the API's records do, the in-place code gives the filtered list |
| Courts.TwinOfFirstKept | test_2.py:111-112 | with two kept courts followed by a copy of the first one's projection, removal by value takes out the wrong element |
| Courts.RemovalByValueReorders | test_2.py:111-112 | a concrete list on which the in-place code gives `[B, twin]` while the filtered list is `[A, B]` |
| TimeSum.SumInts | test_3.py:27 | `sum([int(num) for num in fields])`: `TimeSum.SumIntsDefinedIff` gives when it raises and the time lemmas give its value on three digit fields |
| TimeSum.SumIntsDefinedIff | test_3.py:27 | the sum raises exactly when some field does not parse as an integer |
| TimeSum.SumCurrentTime | test_3.py:9-27 | with verification on, an invalid time gives -1; a valid time gives hour + minute + second, between 0 and 141; with verification off, or for a valid time, the result is the sum of `int()` over the colon-separated fields, whatever the string |
| TimeSum.VerifiedSumOfFields | test_3.py:20-27 | for `h:m:s` with verification on: -1 unless all three fields are in range, otherwise the sum of their values |
| TimeSum.VerifyFlagIrrelevant | test_3.py:52 | for a valid time the verification flag does not change the result |
| TimeSum.ClockTimeSum | test_3.py:56-64 | for every clock time, written as the default argument writes it, the sum is hour + minute + second, so never negative |
| TimeSum.ValidInputCases | test_3.py:30-52 | the seven valid cases give 6, 75, 84, 11, 77, 0 and 141, with or without verification |
| TimeSum.Sum81059 | test_3.py:35 | `"8:10:59"`, with its one-digit hour, is valid and sums to 77 |
| TimeSum.InvalidInputCases | test_3.py:67-88 | `"hello"`, `"01:02"`, `"09"`, `"28:10:59"` and `"24:12:08"` give -1 under verification |
| TimeSum.Reject241208 | test_3.py:74 | hour 24 is rejected under verification |
| TimeSum.UnverifiedMalformedRaises | test_3.py:27 | without verification, any string raises exactly when some colon-separated field is one `int()` rejects |
| TimeSum.UnverifiedFieldsSum | test_3.py:20-27 | without verification, three digit fields joined by colons are summed whether or not they form a valid time |
| TimeSum.UnverifiedOutOfRangeSums | test_3.py:27 | without verification, `"99:99:99"` gives 297 |
| TimeSum.UnverifiedHelloRaises | test_3.py:27 | without verification, `"hello"` raises |

## Left out

- File iteration, the generators `log_parser_step_1/2` and the `test_step_1/2` harness in `test_1.py`: file I/O and printing. Only the first sample line, which `test_step_2` checks, is modelled.
- `read_csv`, `get_nearest_courts_from_API` and the `__main__` block of `test_2.py`: CSV and HTTP I/O through `requests`.
- The error message `sum_current_time` prints: console output.
- The `datetime.now()` default of `sum_current_time`: it reads the clock. `TimeSum.ClockTimeSum` instead covers every clock time the default could produce.
- Non-string arguments to `sum_current_time` (`6`, `True`): these are the TypeError path of `strptime`. The model takes strings only.
- `strptime` and `int()` accept any Unicode decimal digit; the model accepts ASCII digits only.
- Numbers.ParseInt: does not model the limit on the length of a decimal numeral that recent CPython versions put on `int()`: 4300 digits by default, set by `sys.set_int_max_str_digits`. Beyond it `int()` raises ValueError, while `ParseInt` returns the value. The limit is a configurable interpreter setting, and the time fields `sum_current_time` is meant for never come near it.
- Court distances are JSON numbers, floats in Python. They are modelled as reals and compared only for equality and against null.
- Python's cross-type equality (`1 == True`, `1 == 1.0`) in `in` and `list.remove` is not modelled. JSON values compare structurally.
- `format_court_data` mutates its argument and returns `None`. The model returns the resulting list instead.
- LogParser.FormattedLine: requires extra words free of `:` and `/`, and a message that does not start with a digit. `replace` deletes the message and the timestamp wherever they occur, extra words included. An extra word repeating the timestamp (`03/11/21 08:51:01`), or extra words ` INFO:msg` before the message `msg`, is deleted along with the real part, so the source accepts such a line although the lemma's iff, which removes only the level from the extra words, would reject it. A message such as `:01` also occurs inside the time `08:51:01`, so deleting it breaks the timestamp, and the source then rejects the line. The lemma covers neither kind of line.
- LogParser.FormatParseRoundTrip: same restriction as `FormattedLine`: the message must not start with a digit.
- LogParser.ExtraWordRejected: covers extra words that lack the level's first letter. An extra word made only of copies of the level, such as `INFOINFO`, is deleted with it, and the line is accepted; one that merely contains the level, such as `INFOx`, leaves `x` behind and is rejected.
- Courts.FormatCourtData: its own contract only bounds the length. Shape, membership and order are stated by `FormatShape`, `FormatMembers` and `FormatAppend`.
- Courts.AsWrittenAgrees: covers lists without twins only. A twin is a rejected court equal to a kept court's projection. With a twin, the in-place code can reorder the list (see Findings). That `remove` never raises in the as-written code is not proved.

## Findings

| source | as written | input that shows it | evidently intended | confidence | as-written member | corrected member |
|---|---|---|---|---|---|---|
| test_2.py:111-112 | rejected courts are queued and then removed with `courts.remove(court)`, which drops the first element equal to the queued dict | tribunals A and B, both kept, followed by an untyped court equal to A's reduced dict: the result is `[B reduced, twin]` | the kept courts' reduced dicts in input order, `[A reduced, B reduced]` | not executed | Courts.RemovalByValueReorders | Courts.FormatCourtData |

=== FILE: courts.dfy ===
/** `format_court_data` of test_2.py: the courts the finder API returns are
    filtered down to those of the wanted type with a distance, and each kept
    court is reduced to its name, DX number and distance. */
module Courts {
  import opened Wrappers
  import opened Strings

  /** A JSON value as Python holds it after `response.json()`; numbers are
      reals, compared only for equality. */
  datatype Json =
    | Null
    | Bool(b: bool)
    | Num(x: real)
    | Str(s: string)
    | Arr(items: seq<Json>)
    | Obj(fields: map<string, Json>)

  /** One court: a dict from keys to JSON values. */
  type Court = map<string, Json>

  /** `court.get(key, default)`. */
  function Get(court: Court, key: string, default: Json): Json {
    if key in court then court[key] else default
  }

  /** Python's `x in container` for a string `x`: list membership, substring
      or dict key; None for the TypeError any other container raises. */
  function Membership(x: string, container: Json): (r: Option<bool>)
    ensures r.None? <==> !(container.Arr? || container.Str? || container.Obj?)
  {
    match container
    case Arr(items) => Some(Str(x) in items)
    case Str(s) => Some(Contains(s, x))
    case Obj(m) => Some(x in m)
    case _ => None
  }

  /** The test of the loop: Some(true) keeps the court, Some(false) marks it
      for removal (the wanted type is missing from `types`, which defaults to
      an empty list, or the distance is absent or null), None where `in`
      raises. */
  function Keep(courtType: string, court: Court): (r: Option<bool>)
    ensures r == Some(true) ==> "distance" in court && court["distance"] != Null
  {
    match Membership(courtType, Get(court, "types", Arr([])))
    case None => None
    case Some(found) => Some(found && Get(court, "distance", Null) != Null)
  }

  /** The keys a kept court is reduced to. */
  const ProjectedKeys: set<string> := {"name", "dx_number", "distance"}

  /** The dict a kept court is replaced by: name and DX number default to "". */
  function Project(court: Court): (r: Court)
    requires "distance" in court
    ensures r.Keys == ProjectedKeys
    ensures r["distance"] == court["distance"]
    ensures r["name"] == Get(court, "name", Str("")) && r["dx_number"] == Get(court, "dx_number", Str(""))
  {
    map["name" := Get(court, "name", Str("")), "dx_number" := Get(court, "dx_number", Str("")),
        "distance" := court["distance"]]
  }

  /** The list `format_court_data` leaves behind: the projections of the
      kept courts, in their input order; None where a membership test
      raises. */
  function FormatCourtData(courtType: string, courts: seq<Court>): (r: Option<seq<Court>>)
    ensures r.Some? ==> |r.value| <= |courts|
    decreases |courts|
  {
    if |courts| == 0 then Some([])
    else
      var rest := FormatCourtData(courtType, courts[1..]);
      match Keep(courtType, courts[0])
      case None => None
      case Some(keep) =>
        if rest.None? then None
        else if keep then Some([Project(courts[0])] + rest.value)
        else rest
  }

  /** The function raises exactly when the membership test raises on some
      court. */
  lemma {:induction false} FormatRaisesIff(courtType: string, courts: seq<Court>)
    ensures FormatCourtData(courtType, courts).None? <==>
      exists i :: 0 <= i < |courts| && Keep(courtType, courts[i]).None?
    decreases |courts|
  {
    if |courts| > 0 {
      FormatRaisesIff(courtType, courts[1..]);
      assert forall i :: 1 <= i < |courts| ==> courts[1..][i - 1] == courts[i];
    }
  }

  /** Every output court has exactly the projected keys and a distance. */
  lemma {:induction false} FormatShape(courtType: string, courts: seq<Court>)
    requires FormatCourtData(courtType, courts).Some?
    ensures forall c :: c in FormatCourtData(courtType, courts).value ==>
      c.Keys == ProjectedKeys && c["distance"] != Null
  {
    forall c | c in FormatCourtData(courtType, courts).value
      ensures c.Keys == ProjectedKeys && c["distance"] != Null
    {
      FormatMembers(courtType, courts, c);
    }
  }

  /** Membership both ways: an output court is the projection of a kept input
      court, and every kept input court's projection is output. */
  lemma {:induction false} FormatMembers(courtType: string, courts: seq<Court>, x: Court)
    requires FormatCourtData(courtType, courts).Some?
    ensures x in FormatCourtData(courtType, courts).value <==>
      exists i :: 0 <= i < |courts| && Keep(courtType, courts[i]) == Some(true) && x == Project(courts[i])
    decreases |courts|
  {
    if |courts| > 0 {
      FormatMembers(courtType, courts[1..], x);
      assert forall i :: 1 <= i < |courts| ==> courts[1..][i - 1] == courts[i];
      if exists i :: 0 <= i < |courts| && Keep(courtType, courts[i]) == Some(true) && x == Project(courts[i]) {
        var i :| 0 <= i < |courts| && Keep(courtType, courts[i]) == Some(true) && x == Project(courts[i]);
        if i > 0 {
          assert courts[1..][i - 1] == courts[i];
        }
      }
    }
  }

  /** Formatting two lists one after the other is formatting their
      concatenation: kept courts stay in their relative order. */
  lemma {:induction false} FormatAppend(courtType: string, a: seq<Court>, b: seq<Court>)
    ensures var ra := FormatCourtData(courtType, a);
      var rb := FormatCourtData(courtType, b);
      FormatCourtData(courtType, a + b) == if ra.Some? && rb.Some? then Some(ra.value + rb.value) else None
    decreases |a|
  {
    if |a| == 0 {
      assert a + b == b;
      assert FormatCourtData(courtType, a) == Some([]);
      if FormatCourtData(courtType, b).Some? {
        assert [] + FormatCourtData(courtType, b).value == FormatCourtData(courtType, b).value;
      }
    } else {
      FormatAppend(courtType, a[1..], b);
      assert (a + b)[1..] == a[1..] + b;
      assert (a + b)[0] == a[0];
      AppendStep(courtType, a[0], FormatCourtData(courtType, a[1..]), FormatCourtData(courtType, b));
    }
  }

  lemma {:induction false} AppendStep(courtType: string, c: Court, ra: Option<seq<Court>>, rb: Option<seq<Court>>)
    ensures var keep := Keep(courtType, c);
      var front := if keep.None? || ra.None? then None
        else if keep.value then Some([Project(c)] + ra.value) else ra;
      var both := if ra.Some? && rb.Some? then Some(ra.value + rb.value) else None;
      (if keep.None? || both.None? then None else if keep.value then Some([Project(c)] + both.value) else both)
        == (if front.Some? && rb.Some? then Some(front.value + rb.value) else None)
  {
    if ra.Some? && rb.Some? && Keep(courtType, c) == Some(true) {
      assert [Project(c)] + ra.value + rb.value == [Project(c)] + (ra.value + rb.value);
    }
  }

  /** A court without a `types` key is removed whatever its other fields. */
  lemma {:induction false} UntypedCourtRemoved(courtType: string, court: Court)
    requires "types" !in court
    ensures FormatCourtData(courtType, [court]) == Some([])
  {
    assert [court][1..] == [];
  }

  /** A court with a list of types but no usable distance is removed. */
  lemma {:induction false} DistanceLessCourtRemoved(courtType: string, court: Court, types: seq<Json>)
    requires Get(court, "types", Arr([])) == Arr(types)
    requires Get(court, "distance", Null) == Null
    ensures FormatCourtData(courtType, [court]) == Some([])
  {
    assert [court][1..] == [];
  }

  /** A court listing the wanted type and a distance is kept, reduced to its
      name, DX number and distance. */
  lemma {:induction false} WantedCourtKept(courtType: string, court: Court, types: seq<Json>)
    requires Get(court, "types", Arr([])) == Arr(types) && Str(courtType) in types
    requires "distance" in court && court["distance"] != Null
    ensures FormatCourtData(courtType, [court]) == Some([Project(court)])
  {
    assert [court][1..] == [];
    assert Keep(courtType, court) == Some(true);
    assert FormatCourtData(courtType, []) == Some([]);
    assert [Project(court)] + [] == [Project(court)];
  }

  /** Formatting a second time empties the list, since the reduced courts no
      longer have types. */
  lemma {:induction false} FormatTwiceEmpties(courtType: string, courts: seq<Court>)
    requires FormatCourtData(courtType, courts).Some?
    ensures FormatCourtData(courtType, FormatCourtData(courtType, courts).value) == Some([])
  {
    FormatShape(courtType, courts);
    ReformatEmpties(courtType, FormatCourtData(courtType, courts).value);
  }

  lemma {:induction false} ReformatEmpties(courtType: string, cs: seq<Court>)
    requires forall c :: c in cs ==> c.Keys == ProjectedKeys
    ensures FormatCourtData(courtType, cs) == Some([])
    decreases |cs|
  {
    if |cs| > 0 {
      assert cs[0] in cs;
      assert "types" !in cs[0];
      assert forall c :: c in cs[1..] ==> c in cs;
      ReformatEmpties(courtType, cs[1..]);
    }
  }

  // ---------------------------------------------------------------------
  // The in-place rewrite as the source writes it

  /** The list and `courts_to_remove` after the `enumerate` loop: kept courts
      replaced in place by their projections, the others left in place and
      queued for removal. None where a membership test raises. */
  function Rewrite(courtType: string, courts: seq<Court>): (r: Option<(seq<Court>, seq<Court>)>)
    ensures r.Some? ==> |r.value.0| == |courts|
    decreases |courts|
  {
    if |courts| == 0 then Some(([], []))
    else
      match Keep(courtType, courts[0])
      case None => None
      case Some(keep) =>
        match Rewrite(courtType, courts[1..])
        case None => None
        case Some(rest) =>
          if keep then Some(([Project(courts[0])] + rest.0, rest.1))
          else Some(([courts[0]] + rest.0, [courts[0]] + rest.1))
  }

  /** The courts the loop marks for removal, in input order. */
  function Rejected(courtType: string, courts: seq<Court>): seq<Court>
    decreases |courts|
  {
    if |courts| == 0 then []
    else (if Keep(courtType, courts[0]) == Some(false) then [courts[0]] else []) + Rejected(courtType, courts[1..])
  }

  /** What the loop leaves at one position: a kept court's projection, or
      the court itself when it is marked for removal. */
  predicate RewrittenSlot(courtType: string, court: Court, after: Court) {
    || (Keep(courtType, court) == Some(true) && after == Project(court))
    || (Keep(courtType, court) == Some(false) && after == court)
  }

  /** The loop raises exactly when some membership test raises; otherwise
      every position holds its rewritten court and the queue lists the
      rejected courts in input order. */
  lemma {:induction false} RewriteContents(courtType: string, courts: seq<Court>)
    ensures Rewrite(courtType, courts).None? <==>
      exists i :: 0 <= i < |courts| && Keep(courtType, courts[i]).None?
    ensures Rewrite(courtType, courts).Some? ==>
      && (forall i :: 0 <= i < |courts| ==> RewrittenSlot(courtType, courts[i], Rewrite(courtType, courts).value.0[i]))
      && Rewrite(courtType, courts).value.1 == Rejected(courtType, courts)
    decreases |courts|
  {
    if |courts| > 0 {
      var tail := courts[1..];
      RewriteContents(courtType, tail);
      assert forall i :: 1 <= i < |courts| ==> tail[i - 1] == courts[i];
      if Rewrite(courtType, courts).Some? {
        RewriteSlots(courtType, courts, Rewrite(courtType, tail).value.0, Rewrite(courtType, courts).value.0);
      }
    }
  }

  /** One step of the loop keeps the slots of the tail, one position on. */
  lemma {:induction false} RewriteSlots(courtType: string, courts: seq<Court>, rest: seq<Court>, r: seq<Court>)
    requires |courts| > 0 && |rest| == |courts| - 1 && |r| == |courts|
    requires RewrittenSlot(courtType, courts[0], r[0]) && r[1..] == rest
    requires forall i :: 0 <= i < |courts| - 1 ==> RewrittenSlot(courtType, courts[1..][i], rest[i])
    ensures forall i :: 0 <= i < |courts| ==> RewrittenSlot(courtType, courts[i], r[i])
  {
    forall i | 0 < i < |courts| ensures RewrittenSlot(courtType, courts[i], r[i]) {
      assert r[i] == rest[i - 1] && courts[i] == courts[1..][i - 1];
    }
  }

  /** `xs.remove(x)`: drops the first element equal to `x`; None for the
      ValueError when there is none. */
  function RemoveFirst(xs: seq<Court>, x: Court): (r: Option<seq<Court>>)
    ensures r.None? <==> x !in xs
    ensures r.Some? ==> |r.value| == |xs| - 1
  {
    if |xs| == 0 then None
    else if xs[0] == x then Some(xs[1..])
    else
      match RemoveFirst(xs[1..], x)
      case None => None
      case Some(rest) => Some([xs[0]] + rest)
  }

  /** The element `remove` takes out is the first one equal to `x`; the
      elements before and after it stay in order. */
  lemma {:induction false} RemoveFirstTakesFirst(xs: seq<Court>, x: Court)
    ensures RemoveFirst(xs, x).Some? ==>
      exists i :: 0 <= i < |xs| && xs[i] == x && x !in xs[..i] && RemoveFirst(xs, x).value == xs[..i] + xs[i + 1..]
    decreases |xs|
  {
    if |xs| > 0 {
      if xs[0] == x {
        assert xs[..0] == [] && xs[1..] == xs[..0] + xs[0 + 1..];
      } else if RemoveFirst(xs[1..], x).Some? {
        var rest := RemoveFirst(xs[1..], x).value;
        RemoveFirstTakesFirst(xs[1..], x);
        var j :| 0 <= j < |xs[1..]| && xs[1..][j] == x && x !in xs[1..][..j] &&
          rest == xs[1..][..j] + xs[1..][j + 1..];
        ShiftRemoval(xs, x, j, rest);
        assert RemoveFirst(xs, x).value == [xs[0]] + rest;
      }
    }
  }

  /** A removal at `j` in the tail is a removal at `j + 1` in the list. */
  lemma {:induction false} ShiftRemoval(xs: seq<Court>, x: Court, j: nat, rest: seq<Court>)
    requires 0 < |xs| && xs[0] != x && j < |xs| - 1
    requires xs[1..][j] == x && x !in xs[1..][..j] && rest == xs[1..][..j] + xs[1..][j + 1..]
    ensures xs[j + 1] == x && x !in xs[..j + 1] && [xs[0]] + rest == xs[..j + 1] + xs[j + 1 + 1..]
  {
    assert xs[..j + 1] == [xs[0]] + xs[1..][..j];
    assert xs[j + 2..] == xs[1..][j + 1..];
  }

  /** `for court in courts_to_remove: courts.remove(court)`. */
  function RemoveEach(xs: seq<Court>, removals: seq<Court>): (r: Option<seq<Court>>)
    ensures r.Some? ==> |r.value| == |xs| - |removals|
    decreases |removals|
  {
    if |removals| == 0 then Some(xs)
    else
      match RemoveFirst(xs, removals[0])
      case None => None
      case Some(ys) => RemoveEach(ys, removals[1..])
  }

  /** `format_court_data` as written: the loop, then the removals by value. */
  function FormatCourtDataAsWritten(courtType: string, courts: seq<Court>): (r: Option<seq<Court>>)
    ensures r.Some? ==> |r.value| == |courts| - |Rejected(courtType, courts)|
  {
    match Rewrite(courtType, courts)
    case None => None
    case Some(lists) =>
      RewriteContents(courtType, courts);
      RemoveEach(lists.0, lists.1)
  }

  /** No court marked for removal equals the projection of a kept court. */
  predicate NoTwins(courtType: string, courts: seq<Court>) {
    forall i, j ::
      (0 <= i < |courts| && 0 <= j < |courts| &&
       Keep(courtType, courts[i]) == Some(true) && Keep(courtType, courts[j]) == Some(false))
      ==> courts[j] != Project(courts[i])
  }

  /** A leading element that no removal equals stays in front. */
  lemma {:induction false} RemoveEachSkipsHead(p: Court, ys: seq<Court>, removals: seq<Court>)
    requires forall k :: 0 <= k < |removals| ==> removals[k] != p
    ensures var r := RemoveEach(ys, removals);
      RemoveEach([p] + ys, removals) == if r.Some? then Some([p] + r.value) else None
    decreases |removals|
  {
    if |removals| > 0 {
      assert ([p] + ys)[0] == p && ([p] + ys)[1..] == ys;
      match RemoveFirst(ys, removals[0])
      case None =>
      case Some(zs) =>
        RemoveEachSkipsHead(p, zs, removals[1..]);
    }
  }

  /** Without such twins the removals by value take out exactly the courts
      that were queued, and the as-written code gives the filtered list. */
  lemma {:induction false} AsWrittenAgrees(courtType: string, courts: seq<Court>)
    requires NoTwins(courtType, courts)
    ensures FormatCourtDataAsWritten(courtType, courts) == FormatCourtData(courtType, courts)
    decreases |courts|
  {
    if |courts| > 0 {
      var tail := courts[1..];
      assert forall i :: 1 <= i < |courts| ==> tail[i - 1] == courts[i];
      assert NoTwins(courtType, tail);
      AsWrittenAgrees(courtType, tail);
      var c := courts[0];
      match Keep(courtType, c)
      case None =>
      case Some(keep) =>
        match Rewrite(courtType, tail)
        case None =>
        case Some(rest) =>
          if keep {
            QueuedAreRemoved(courtType, tail, rest.1);
            forall k | 0 <= k < |rest.1| ensures rest.1[k] != Project(c) {
              var j :| 0 <= j < |tail| && Keep(courtType, tail[j]) == Some(false) && tail[j] == rest.1[k];
              assert courts[j + 1] == tail[j];
            }
            RemoveEachSkipsHead(Project(c), rest.0, rest.1);
          } else {
            assert ([c] + rest.0)[0] == c;
          }
      }
  }

  /** Every queued court is one the loop marked for removal. */
  lemma {:induction false} QueuedAreRemoved(courtType: string, courts: seq<Court>, queued: seq<Court>)
    requires Rewrite(courtType, courts).Some? && Rewrite(courtType, courts).value.1 == queued
    ensures forall k :: 0 <= k < |queued| ==>
      exists j :: 0 <= j < |courts| && Keep(courtType, courts[j]) == Some(false) && courts[j] == queued[k]
    decreases |courts|
  {
    if |courts| > 0 {
      var tail := courts[1..];
      var rest := Rewrite(courtType, tail).value;
      QueuedAreRemoved(courtType, tail, rest.1);
      forall k | 0 <= k < |queued|
        ensures exists j :: 0 <= j < |courts| && Keep(courtType, courts[j]) == Some(false) && courts[j] == queued[k]
      {
        if Keep(courtType, courts[0]) == Some(true) {
          var j :| 0 <= j < |tail| && Keep(courtType, tail[j]) == Some(false) && tail[j] == queued[k];
          assert courts[j + 1] == tail[j];
        } else if k == 0 {
          assert courts[0] == queued[0];
        } else {
          assert queued[k] == rest.1[k - 1];
          var j :| 0 <= j < |tail| && Keep(courtType, tail[j]) == Some(false) && tail[j] == rest.1[k - 1];
          assert courts[j + 1] == tail[j];
        }
      }
    }
  }

  /** Courts that all carry a `types` key, as the finder API's records do,
      have no twins: the as-written code then gives the filtered list. */
  lemma {:induction false} TypedCourtsAgree(courtType: string, courts: seq<Court>)
    requires forall i :: 0 <= i < |courts| ==> "types" in courts[i]
    ensures FormatCourtDataAsWritten(courtType, courts) == FormatCourtData(courtType, courts)
  {
    forall i, j | 0 <= i < |courts| && 0 <= j < |courts| &&
      Keep(courtType, courts[i]) == Some(true) && Keep(courtType, courts[j]) == Some(false)
      ensures courts[j] != Project(courts[i])
    {
      assert "types" in courts[j] && "types" !in Project(courts[i]);
    }
    AsWrittenAgrees(courtType, courts);
  }

  // ---------------------------------------------------------------------
  // Where the removal by value goes wrong

  /** A tribunal named `name` at distance `d`. */
  function Tribunal(name: string, d: real): Court {
    map["types" := Arr([Str("Tribunal")]), "name" := Str(name), "distance" := Num(d)]
  }

  /** Two tribunals, then an untyped court that equals the first one's
      projection. The untyped court is queued for removal, but `remove`
      drops the first equal element, the first tribunal's projection, so the
      list comes out reordered. The filtered list keeps the input order. */
  lemma {:induction false} RemovalByValueReorders()
    ensures var a := Tribunal("A", 1.0);
      var b := Tribunal("B", 2.0);
      var twin := Project(a);
      && FormatCourtDataAsWritten("Tribunal", [a, b, twin]) == Some([Project(b), twin])
      && FormatCourtData("Tribunal", [a, b, twin]) == Some([Project(a), Project(b)])
      && Project(a) != Project(b)
  {
    var a := Tribunal("A", 1.0);
    var b := Tribunal("B", 2.0);
    TribunalKept("A", 1.0);
    TribunalKept("B", 2.0);
    assert "types" !in Project(a);
    assert Keep("Tribunal", Project(a)) == Some(false);
    assert Project(a)["name"] == Str("A") && Project(b)["name"] == Str("B");
    TwinOfFirstKept("Tribunal", a, b, Project(a));
  }

  lemma {:induction false} TribunalKept(name: string, d: real)
    ensures Keep("Tribunal", Tribunal(name, d)) == Some(true)
  {
    assert Str("Tribunal") in [Str("Tribunal")];
  }

  /** Two kept courts followed by a court equal to the first one's
      projection: the removal takes out the projection, not the queued
      court. */
  lemma {:induction false} TwinOfFirstKept(courtType: string, a: Court, b: Court, t: Court)
    requires Keep(courtType, a) == Some(true) && Keep(courtType, b) == Some(true)
    requires Keep(courtType, t) == Some(false) && t == Project(a)
    ensures FormatCourtDataAsWritten(courtType, [a, b, t]) == Some([Project(b), t])
    ensures FormatCourtData(courtType, [a, b, t]) == Some([Project(a), Project(b)])
  {
    var courts := [a, b, t];
    assert courts[1..] == [b, t] && [b, t][1..] == [t] && [t][1..] == [];
    assert Rewrite(courtType, []) == Some(([], [])) && [t] + [] == [t];
    assert Rewrite(courtType, [t]) == Some(([t], [t]));
    assert [Project(b)] + [t] == [Project(b), t];
    assert Rewrite(courtType, [b, t]) == Some(([Project(b), t], [t]));
    assert [Project(a)] + [Project(b), t] == [t, Project(b), t];
    assert Rewrite(courtType, courts) == Some(([t, Project(b), t], [t]));
    assert RemoveFirst([t, Project(b), t], t) == Some([Project(b), t]);
    assert RemoveEach([Project(b), t], [t][1..]) == Some([Project(b), t]);
    assert FormatCourtData(courtType, []) == Some([]);
    assert FormatCourtData(courtType, [t]) == Some([]);
    assert [Project(b)] + [] == [Project(b)];
    assert FormatCourtData(courtType, [b, t]) == Some([Project(b)]);
    assert [Project(a)] + [Project(b)] == [Project(a), Project(b)];
  }
}

=== FILE: log_parser.dfy ===
/** The log-line parser of test_1.py. A log line is a header of
    space-separated fields (a date, a time, a level), the delimiter " :" and a
    free-text message. */
module LogParser {
  import opened Wrappers
  import opened Strings
  import opened Numbers
  import opened TimeFormat

  /** Separates the header fields of a line from its message. */
  const Delimiter: string := " :"

  /** `VALID_LOG_LEVELS`, in the order the tuple lists them. */
  const ValidLogLevels: seq<string> := ["INFO", "TRACE", "WARNING"]

  /** `get_message_from_line`: ":" followed by everything after the first
      delimiter, or "" when the line has no delimiter or nothing but white
      space after it. */
  function GetMessage(line: string): (r: string)
    ensures IndexOf(line, Delimiter).None? ==> r == ""
    ensures IndexOf(line, Delimiter).Some? ==>
      var rest := line[IndexOf(line, Delimiter).value + |Delimiter|..];
      r == if IsBlank(rest) then "" else ":" + rest
  {
    if !Contains(line, Delimiter) then ""
    else
      var message := Join(Split(line, Delimiter)[1..], Delimiter);
      SplitFirstPiece(line, Delimiter, IndexOf(line, Delimiter).value);
      StripEmptyIffBlank(message);
      if Strip(message) == [] then "" else ":" + message
  }

  /** `line.split(" :")[0].split(" ")`: the space-separated fields before the
      first delimiter. */
  function HeaderFields(line: string): seq<string> {
    Split(Split(line, Delimiter)[0], " ")
  }

  /** The header fields join back, with single spaces, to the text before the
      first delimiter (the whole line when there is none), and none of them
      contains a space. */
  lemma {:induction false} HeaderFieldsSpell(line: string)
    ensures |HeaderFields(line)| > 0
    ensures Join(HeaderFields(line), " ") ==
      if IndexOf(line, Delimiter).Some? then line[..IndexOf(line, Delimiter).value] else line
    ensures forall i :: 0 <= i < |HeaderFields(line)| ==> !Contains(HeaderFields(line)[i], " ")
  {
    SplitPiecesLackSeparator(Split(line, Delimiter)[0], " ");
    match IndexOf(line, Delimiter)
    case None =>
      assert Split(line, Delimiter) == [line];
    case Some(k) =>
      SplitFirstPiece(line, Delimiter, k);
  }

  /** `validate_timestamp`: both `strptime` calls succeed. */
  predicate ValidateTimestamp(date: string, time: string) {
    IsValidDate(date) && IsValidTime(time)
  }

  /** The scanning loop both header searches use: the first position from
      `count` up to `n` that satisfies `p`, or None when no position does. */
  function FirstIndex(n: nat, p: nat -> bool, count: nat): (r: Option<nat>)
    ensures r.Some? ==> count <= r.value < n && p(r.value)
    ensures r.Some? ==> forall j :: count <= j < r.value ==> !p(j)
    ensures r.None? ==> forall j :: count <= j < n ==> !p(j)
    decreases n - count
  {
    if count >= n then None
    else if p(count) then Some(count)
    else FirstIndex(n, p, count + 1)
  }

  /** Positions `j` of `fields` where a valid date is followed by a valid time. */
  function StartsTimestamp(fields: seq<string>): nat -> bool {
    (j: nat) => j + 1 < |fields| && ValidateTimestamp(fields[j], fields[j + 1])
  }

  /** `get_timestamp_from_line`: the first valid date and time among the header
      fields, joined by a space; None when no adjacent pair is valid. */
  function GetTimestamp(line: string): (r: Option<string>)
    ensures var f := HeaderFields(line);
      r.None? <==> forall j :: 0 <= j < |f| - 1 ==> !ValidateTimestamp(f[j], f[j + 1])
  {
    var f := HeaderFields(line);
    NoTimestampScan(f);
    match FirstIndex(|f| - 1, StartsTimestamp(f), 0)
    case None => None
    case Some(j) => Some(f[j] + " " + f[j + 1])
  }

  /** Positions `j` of `fields` holding a valid level. */
  function IsLevelAt(fields: seq<string>): nat -> bool {
    (j: nat) => j < |fields| && fields[j] in ValidLogLevels
  }

  /** `get_logging_level_from_line`: the first header field that is a valid
      level; None when no field is. */
  function GetLoggingLevel(line: string): (r: Option<string>)
    ensures r.Some? ==> r.value in ValidLogLevels
    ensures var f := HeaderFields(line);
      r.None? <==> forall j :: 0 <= j < |f| ==> f[j] !in ValidLogLevels
  {
    var f := HeaderFields(line);
    NoLevelScan(f);
    match FirstIndex(|f|, IsLevelAt(f), 0)
    case None => None
    case Some(j) => Some(f[j])
  }

  /** The timestamp scan finds nothing exactly when no adjacent pair is valid. */
  lemma {:induction false} NoTimestampScan(f: seq<string>)
    requires |f| >= 1
    ensures FirstIndex(|f| - 1, StartsTimestamp(f), 0).None? <==>
      forall j :: 0 <= j < |f| - 1 ==> !ValidateTimestamp(f[j], f[j + 1])
  {
    var r := FirstIndex(|f| - 1, StartsTimestamp(f), 0);
    if r.Some? {
      FoundTimestamp(f, r.value);
    } else {
      MissedTimestamps(f);
    }
  }

  lemma {:induction false} FoundTimestamp(f: seq<string>, j: nat)
    requires StartsTimestamp(f)(j)
    ensures j < |f| - 1 && ValidateTimestamp(f[j], f[j + 1])
  {
  }

  lemma {:induction false} MissedTimestamps(f: seq<string>)
    requires |f| >= 1 && FirstIndex(|f| - 1, StartsTimestamp(f), 0).None?
    ensures forall j :: 0 <= j < |f| - 1 ==> !ValidateTimestamp(f[j], f[j + 1])
  {
    forall j | 0 <= j < |f| - 1 ensures !ValidateTimestamp(f[j], f[j + 1]) {
      assert !StartsTimestamp(f)(j);
    }
  }

  /** The level scan finds nothing exactly when no field is a valid level. */
  lemma {:induction false} NoLevelScan(f: seq<string>)
    ensures FirstIndex(|f|, IsLevelAt(f), 0).None? <==> forall j :: 0 <= j < |f| ==> f[j] !in ValidLogLevels
  {
    var r := FirstIndex(|f|, IsLevelAt(f), 0);
    if r.Some? {
      assert IsLevelAt(f)(r.value);
    } else {
      forall j | 0 <= j < |f| ensures f[j] !in ValidLogLevels {
        assert !IsLevelAt(f)(j);
      }
    }
  }

  /** The scan stops at the first position that satisfies `p`. */
  lemma {:induction false} FirstIndexIs(n: nat, p: nat -> bool, count: nat, i: nat)
    requires count <= i < n && p(i)
    requires forall j :: count <= j < i ==> !p(j)
    ensures FirstIndex(n, p, count) == Some(i)
  {
    var r := FirstIndex(n, p, count);
    assert r.Some?;
    assert r.value <= i && r.value >= i;
  }

  /** The timestamp is the pair at the first position where a valid date is
      followed by a valid time. */
  lemma {:induction false} TimestampAt(line: string, i: nat)
    requires var f := HeaderFields(line);
      && i + 1 < |f| && ValidateTimestamp(f[i], f[i + 1])
      && forall j :: 0 <= j < i ==> !ValidateTimestamp(f[j], f[j + 1])
    ensures var f := HeaderFields(line); GetTimestamp(line) == Some(f[i] + " " + f[i + 1])
  {
    var f := HeaderFields(line);
    assert FirstIndex(|f| - 1, StartsTimestamp(f), 0) == Some(i) by {
      forall j | 0 <= j < i ensures !StartsTimestamp(f)(j) {
        assert !ValidateTimestamp(f[j], f[j + 1]);
      }
      FirstIndexIs(|f| - 1, StartsTimestamp(f), 0, i);
    }
  }

  /** The level is the first header field that is a valid level. */
  lemma {:induction false} LevelAt(line: string, i: nat)
    requires var f := HeaderFields(line);
      && i < |f| && f[i] in ValidLogLevels
      && forall j :: 0 <= j < i ==> f[j] !in ValidLogLevels
    ensures GetLoggingLevel(line) == Some(HeaderFields(line)[i])
  {
    var f := HeaderFields(line);
    forall j | 0 <= j < i ensures !IsLevelAt(f)(j) {
      assert f[j] !in ValidLogLevels;
    }
    FirstIndexIs(|f|, IsLevelAt(f), 0, i);
  }

  /** Python truthiness of an optional string: present and non-empty. */
  predicate Truthy(o: Option<string>) {
    o.Some? && o.value != ""
  }

  /** `is_log_line`, its True and None results read as true and false. The
      stripped line needs a message, a timestamp and a level; once each of
      them has been removed from it (every occurrence, in that order), only
      white space may remain. */
  function IsLogLine(line: string): (r: bool)
    ensures r ==> var l := Strip(line);
      GetMessage(l) != "" && GetTimestamp(l).Some? && GetLoggingLevel(l).Some? && Contains(l, Delimiter)
  {
    var l := Strip(line);
    var message := GetMessage(l);
    var timestamp := GetTimestamp(l);
    var level := GetLoggingLevel(l);
    if message == "" || !Truthy(timestamp) || !Truthy(level) then false
    else
      var rest := ReplaceAll(ReplaceAll(ReplaceAll(l, message, ""), timestamp.value, ""), level.value, "");
      Strip(rest) == []
  }

  /** The dictionary `get_dict` builds; None stands for Python's None. */
  datatype LogRecord = LogRecord(timestamp: Option<string>, logLevel: Option<string>, message: string)

  /** `get_dict`: the timestamp, level and message of the stripped line. The
      level is a valid one, the message is empty or starts with ":", and a
      log line has all three. */
  function GetDict(line: string): (r: LogRecord)
    ensures r.logLevel.Some? ==> r.logLevel.value in ValidLogLevels
    ensures r.message == "" || r.message[0] == ':'
    ensures IsLogLine(line) ==> r.timestamp.Some? && r.logLevel.Some? && r.message != ""
  {
    var l := Strip(line);
    LogRecord(GetTimestamp(l), GetLoggingLevel(l), GetMessage(l))
  }

  // ---------------------------------------------------------------------
  // Where the delimiter falls

  /** A header without the delimiter in front of the delimiter and any text:
      the delimiter found is that one, the header fields are the header's, and
      the message is the text unless that is blank. */
  lemma {:induction false} DelimitedLine(h: string, r: string)
    requires NoAdjacent(h, ' ', ':')
    ensures IndexOf(h + Delimiter + r, Delimiter) == Some(|h|)
    ensures HeaderFields(h + Delimiter + r) == Split(h, " ")
    ensures GetMessage(h + Delimiter + r) == if IsBlank(r) then "" else ":" + r
  {
    var line := h + Delimiter + r;
    assert line == h + [' ', ':'] + r;
    IndexOfPair(h, ' ', ':', r);
    SplitFirstPiece(line, Delimiter, |h|);
    assert line[..|h|] == h;
    assert line[|h| + |Delimiter|..] == r;
  }

  /** A line without the delimiter is all header and has no message. */
  lemma {:induction false} UndelimitedLine(h: string)
    requires NoAdjacent(h, ' ', ':')
    ensures HeaderFields(h) == Split(h, " ")
    ensures GetMessage(h) == ""
  {
    NoAdjacentNotContains(h, ' ', ':');
    assert Split(h, Delimiter) == [h];
  }

  /** Whatever follows the delimiter never changes the timestamp or the level
      found in front of it. */
  lemma {:induction false} MessageNeverAffectsHeader(h: string, r: string)
    requires NoAdjacent(h, ' ', ':')
    ensures GetTimestamp(h + Delimiter + r) == GetTimestamp(h)
    ensures GetLoggingLevel(h + Delimiter + r) == GetLoggingLevel(h)
  {
    DelimitedLine(h, r);
    UndelimitedLine(h);
  }

  /** Stripping cannot create the delimiter. */
  lemma {:induction false} StrippedDelimiter(line: string)
    ensures Contains(Strip(line), Delimiter) ==> Contains(line, Delimiter)
  {
    var a := StripPiece(line);
    if Contains(Strip(line), Delimiter) {
      ContainsInPiece(line, Delimiter, a, a + |Strip(line)|);
    }
  }

  /** A line without the delimiter is no log line, and its dictionary has an
      empty message. */
  lemma {:induction false} NoDelimiterNoLogLine(line: string)
    requires !Contains(line, Delimiter)
    ensures !IsLogLine(line)
    ensures GetDict(line).message == ""
  {
    StrippedDelimiter(line);
  }

  // ---------------------------------------------------------------------
  // What the header fields are made of

  /** Every colon is immediately followed by a digit, so no message (which
      starts with ":" and a non-digit) can be found inside. */
  predicate DigitFollowsColons(s: string) {
    forall i :: 0 <= i < |s| && s[i] == ':' ==> i + 1 < |s| && IsDigit(s[i + 1])
  }

  lemma {:induction false} DigitFollowsColonsJoin(a: string, b: string)
    requires DigitFollowsColons(a) && DigitFollowsColons(b)
    ensures DigitFollowsColons(a + b)
  {
    var s := a + b;
    forall i | 0 <= i < |s| && s[i] == ':' ensures i + 1 < |s| && IsDigit(s[i + 1]) {
      if i < |a| {
        assert a[i] == ':';
        assert s[i + 1] == a[i + 1];
      } else {
        assert b[i - |a|] == ':';
        assert s[i + 1] == b[i - |a| + 1];
      }
    }
  }

  lemma {:induction false} NoColonDigitFollows(s: string)
    requires ':' !in s
    ensures DigitFollowsColons(s)
  {
    forall i | 0 <= i < |s| ensures s[i] != ':' {
      assert s[i] in s;
    }
  }

  /** A colon then digits: the colon's successor is a digit. */
  lemma {:induction false} ColonThenDigits(f: string)
    requires |f| > 0 && AllDigits(f)
    ensures DigitFollowsColons(":" + f) && ':' !in f
  {
    var s := ":" + f;
    assert forall i :: 1 <= i < |s| ==> s[i] == f[i - 1];
    assert ':' !in f by {
      forall i | 0 <= i < |f| ensures f[i] != ':' { assert IsDigit(f[i]); }
    }
  }

  /** A character that is not a digit is absent from a string of digits. */
  lemma {:induction false} NotInDigits(s: string, c: char)
    requires AllDigits(s) && !IsDigit(c)
    ensures c !in s
  {
  }

  /** Three digit fields joined by colons. */
  lemma {:induction false} TimeFieldsChars(a: string, b: string, c: string)
    requires |a| > 0 && |b| > 0 && |c| > 0 && AllDigits(a) && AllDigits(b) && AllDigits(c)
    ensures var t := a + ":" + b + ":" + c;
      t[0] == a[0] && ' ' !in t && '/' !in t && DigitFollowsColons(t)
  {
    NotInDigits(a, ' '); NotInDigits(b, ' '); NotInDigits(c, ' ');
    NotInDigits(a, '/'); NotInDigits(b, '/'); NotInDigits(c, '/');
    NotInDigits(a, ':');
    ColonThenDigits(b);
    ColonThenDigits(c);
    NoColonDigitFollows(a);
    DigitFollowsColonsJoin(a, ":" + b);
    DigitFollowsColonsJoin(a + (":" + b), ":" + c);
    assert a + ":" + b + ":" + c == a + (":" + b) + (":" + c);
  }

  /** A valid time is digits and colons, begins with a digit and has a digit
      after each colon. */
  lemma {:induction false} TimeChars(t: string)
    requires IsValidTime(t)
    ensures |t| > 0 && IsDigit(t[0]) && ' ' !in t && '/' !in t
    ensures DigitFollowsColons(t)
  {
    var f := Split(t, ":");
    ValidTimeParts(t);
    TimeFieldsChars(f[0], f[1], f[2]);
  }

  /** Three date fields joined by slashes. */
  lemma {:induction false} DateFieldsChars(a: string, b: string, c: string)
    requires DayField(a) && AllDigits(b) && AllDigits(c)
    ensures var d := a + "/" + b + "/" + c; '/' in d && ':' !in d && (d[0] == ' ' || IsDigit(d[0]))
  {
    if a[0] == ' ' {
      assert a == [' ', a[1]];
    } else {
      NotInDigits(a, ':');
    }
    NotInDigits(b, ':');
    NotInDigits(c, ':');
    assert (a + "/" + b + "/" + c)[|a|] == '/';
  }

  /** A valid date is digits, slashes and spaces, and has a slash. */
  lemma {:induction false} DateChars(d: string)
    requires IsValidDate(d)
    ensures |d| > 0 && '/' in d && ':' !in d && (d[0] == ' ' || IsDigit(d[0]))
  {
    var f := Split(d, "/");
    ValidDateParts(d);
    DateFieldsChars(f[0], f[1], f[2]);
  }

  /** The levels are single upper-case words. */
  lemma {:induction false} LevelChars(level: string)
    requires level in ValidLogLevels
    ensures |level| > 0 && ' ' !in level && ':' !in level && '/' !in level && !IsSpace(level[0])
  {
  }

  // ---------------------------------------------------------------------
  // Lines in the format the log writes

  /** A date without spaces, a time and a level: the fields of a header in
      the log's own format. */
  predicate WellFormedHeader(date: string, time: string, level: string) {
    IsValidDate(date) && ' ' !in date && IsValidTime(time) && level in ValidLogLevels
  }

  /** Further header words after the level: each led by a space, without
      colons or slashes. */
  predicate PlainExtra(extra: string) {
    (extra == [] || extra[0] == ' ') && ':' !in extra && '/' !in extra
  }

  /** The header `date time level extra`. */
  function Header(date: string, time: string, level: string, extra: string): string {
    date + " " + time + " " + level + extra
  }

  /** Such a header has no space followed by a colon. */
  lemma {:induction false} HeaderNoDelimiter(d: string, t: string, level: string, extra: string)
    requires WellFormedHeader(d, t, level) && PlainExtra(extra)
    ensures NoAdjacent(Header(d, t, level, extra), ' ', ':')
  {
    DateChars(d);
    TimeChars(t);
    LevelChars(level);
    NoAdjacentWithout(d, ' ', ':');
    NoAdjacentWithout(" ", ' ', ':');
    NoAdjacentWithout(t, ' ', ':');
    NoAdjacentWithout(level, ' ', ':');
    NoAdjacentWithout(extra, ' ', ':');
    NoAdjacentJoin(d, " ", ' ', ':');
    NoAdjacentJoin(d + " ", t, ' ', ':');
    NoAdjacentJoin(d + " " + t, " ", ' ', ':');
    NoAdjacentJoin(d + " " + t + " ", level, ' ', ':');
    NoAdjacentJoin(d + " " + t + " " + level, extra, ' ', ':');
  }

  /** Its space-separated fields are the date, the time, then the level and
      the extra words. */
  lemma {:induction false} HeaderSplit(d: string, t: string, level: string, extra: string)
    requires WellFormedHeader(d, t, level) && PlainExtra(extra)
    ensures var f := Split(Header(d, t, level, extra), " ");
      |f| >= 3 && f[0] == d && f[1] == t && f[2] == level
  {
    TimeChars(t);
    LevelChars(level);
    SplitWords(d, t, level, extra);
  }

  lemma {:induction false} SplitWords(d: string, t: string, level: string, extra: string)
    requires ' ' !in d && ' ' !in t && ' ' !in level && (extra == [] || extra[0] == ' ')
    ensures var f := Split(d + " " + t + " " + level + extra, " ");
      |f| >= 3 && f[0] == d && f[1] == t && f[2] == level
  {
    var tail := level + extra;
    var rest := Split(tail, " ");
    assert d + " " + t + " " + level + extra == d + [' '] + (t + [' '] + tail);
    SplitAtChar(d, ' ', t + [' '] + tail);
    SplitAtChar(t, ' ', tail);
    FirstWord(level, extra);
    var f := [d] + ([t] + rest);
    assert f[0] == d && f[1] == t && f[2] == rest[0];
  }

  /** A word followed by nothing or by a space splits off first. */
  lemma {:induction false} FirstWord(level: string, extra: string)
    requires ' ' !in level && (extra == [] || extra[0] == ' ')
    ensures Split(level + extra, " ")[0] == level
  {
    if extra == [] {
      assert level + extra == level;
      SplitNoChar(level, ' ');
    } else {
      assert level + extra == level + [' '] + extra[1..];
      SplitAtChar(level, ' ', extra[1..]);
    }
  }

  /** Every colon of the header, and of the header and a space, is followed
      by a digit. */
  lemma {:induction false} HeaderColons(d: string, t: string, level: string, extra: string)
    requires WellFormedHeader(d, t, level) && PlainExtra(extra)
    ensures DigitFollowsColons(Header(d, t, level, extra) + " ")
  {
    DateChars(d);
    TimeChars(t);
    LevelChars(level);
    ColonsOfWords(d, t, level, extra);
  }

  lemma {:induction false} ColonsOfWords(d: string, t: string, level: string, extra: string)
    requires ':' !in d && DigitFollowsColons(t) && ':' !in level && ':' !in extra
    ensures DigitFollowsColons(d + " " + t + " " + level + extra + " ")
  {
    var after := " " + level + extra + " ";
    assert ':' !in after;
    NoColonDigitFollows(d + " ");
    NoColonDigitFollows(after);
    DigitFollowsColonsJoin(d + " ", t);
    DigitFollowsColonsJoin(d + " " + t, after);
    assert d + " " + t + " " + level + extra + " " == d + " " + t + after;
  }

  /** Strings with a slash or a colon are not levels. */
  lemma {:induction false} NotALevel(s: string)
    requires '/' in s || ':' in s
    ensures s !in ValidLogLevels
  {
  }

  /** A valid date and time at the front of the header fields are the
      timestamp. */
  lemma {:induction false} TimestampOfFields(l: string)
    requires var f := HeaderFields(l); |f| >= 2 && ValidateTimestamp(f[0], f[1])
    ensures var f := HeaderFields(l); GetTimestamp(l) == Some(f[0] + " " + f[1])
  {
    TimestampAt(l, 0);
  }

  /** A level in third place, after two fields that are not levels, is the
      level. */
  lemma {:induction false} LevelOfFields(l: string)
    requires var f := HeaderFields(l);
      |f| >= 3 && f[0] !in ValidLogLevels && f[1] !in ValidLogLevels && f[2] in ValidLogLevels
    ensures GetLoggingLevel(l) == Some(HeaderFields(l)[2])
  {
    var f := HeaderFields(l);
    assert forall j :: 0 <= j < 2 ==> f[j] !in ValidLogLevels;
    LevelAt(l, 2);
  }

  /** Removing the message: it starts with a colon and a non-digit, so its
      only occurrence is the one at the end. */
  lemma {:induction false} RemoveMessage(p: string, r: string)
    requires DigitFollowsColons(p) && |r| > 0 && !IsDigit(r[0])
    ensures ReplaceAll(p + ":" + r, ":" + r, "") == p
  {
    var s := p + ":" + r;
    var pat := ":" + r;
    forall j | 0 <= j < |p| ensures !OccursAt(s, pat, j) {
      if j + |pat| <= |s| && s[j] == ':' {
        assert p[j] == ':';
        assert s[j + 1] == p[j + 1];
        assert s[j..][..|pat|][1] == s[j + 1];
      }
    }
    ReplaceAllSkip(s, pat, "", |p|);
    assert s[..|p|] == p && s[|p|..] == pat + [];
    ReplaceAllFront(pat, [], "");
  }

  /** Removing the timestamp: it has a slash and the rest has none. */
  lemma {:induction false} RemoveTimestamp(ts: string, rest: string)
    requires '/' in ts && '/' !in rest
    ensures ReplaceAll(ts + rest, ts, "") == rest
  {
    ReplaceAllFront(ts, rest, "");
    ReplaceAllMissingChar(rest, ts, "", '/');
  }

  /** Removing the level from `" " + level + extra + " "` leaves the spaces
      and the extra words with the level removed. */
  lemma {:induction false} RemoveLevel(level: string, extra: string)
    requires level in ValidLogLevels
    ensures ReplaceAll(" " + level + extra + " ", level, "") == " " + ReplaceAll(extra, level, "") + " "
  {
    LevelChars(level);
    assert " " + level + extra + " " == [' '] + (level + (extra + [' ']));
    ReplaceAllPrepend(' ', level + (extra + [' ']), level, "");
    ReplaceAllFront(level, extra + [' '], "");
    ReplaceAllAppend(extra, ' ', level, "");
  }

  lemma {:induction false} BlankPadded(x: string)
    ensures IsBlank(" " + x + " ") <==> IsBlank(x)
  {
    var s := " " + x + " ";
    assert forall i :: 0 <= i < |x| ==> s[i + 1] == x[i];
    if IsBlank(x) {
      forall i | 0 <= i < |s| ensures IsSpace(s[i]) {
        if 0 < i < |s| - 1 { assert s[i] == x[i - 1]; }
      }
    }
  }

  /** Stripping a formatted line only trims the end of its message. */
  lemma {:induction false} StripFormattedLine(d: string, t: string, level: string, extra: string, r: string)
    requires WellFormedHeader(d, t, level) && !IsBlank(r)
    ensures Strip(Header(d, t, level, extra) + Delimiter + r) == Header(d, t, level, extra) + Delimiter + StripRight(r)
  {
    DateChars(d);
    var front := Header(d, t, level, extra) + Delimiter;
    assert front[0] == d[0];
    StripKeepsFront(front, r);
  }

  /** The three parts of a stripped formatted line are found where they are
      written. */
  lemma {:induction false} FormattedParts(d: string, t: string, level: string, extra: string, m: string)
    requires WellFormedHeader(d, t, level) && PlainExtra(extra) && !IsBlank(m)
    ensures var l := Header(d, t, level, extra) + Delimiter + m;
      && GetMessage(l) == ":" + m
      && GetTimestamp(l) == Some(d + " " + t)
      && GetLoggingLevel(l) == Some(level)
  {
    var h := Header(d, t, level, extra);
    var l := h + Delimiter + m;
    HeaderNoDelimiter(d, t, level, extra);
    DelimitedLine(h, m);
    HeaderSplit(d, t, level, extra);
    DateChars(d);
    NotALevel(d);
    TimeChars(t);
    assert ':' in t by { ValidTimeParts(t); }
    NotALevel(t);
    TimestampOfFields(l);
    LevelOfFields(l);
  }

  /** Removing the three parts from a stripped formatted line leaves the
      extra words, with the level removed from them, between spaces. */
  lemma {:induction false} FormattedRest(d: string, t: string, level: string, extra: string, m: string)
    requires WellFormedHeader(d, t, level) && PlainExtra(extra) && |m| > 0 && !IsDigit(m[0])
    ensures var l := Header(d, t, level, extra) + Delimiter + m;
      ReplaceAll(ReplaceAll(ReplaceAll(l, ":" + m, ""), d + " " + t, ""), level, "")
        == " " + ReplaceAll(extra, level, "") + " "
  {
    HeaderColons(d, t, level, extra);
    DateChars(d);
    LevelChars(level);
    RestOfWords(d, t, level, extra, m);
  }

  lemma {:induction false} RestOfWords(d: string, t: string, level: string, extra: string, m: string)
    requires DigitFollowsColons(d + " " + t + " " + level + extra + " ")
    requires '/' in d && '/' !in level && '/' !in extra && level in ValidLogLevels
    requires |m| > 0 && !IsDigit(m[0])
    ensures var l := d + " " + t + " " + level + extra + Delimiter + m;
      ReplaceAll(ReplaceAll(ReplaceAll(l, ":" + m, ""), d + " " + t, ""), level, "")
        == " " + ReplaceAll(extra, level, "") + " "
  {
    var ts := d + " " + t;
    var after := " " + level + extra + " ";
    var front := ts + after;
    assert front == d + " " + t + " " + level + extra + " ";
    assert d + " " + t + " " + level + extra + Delimiter + m == front + ":" + m;
    RemoveMessage(front, m);
    assert '/' !in after;
    RemoveTimestamp(ts, after);
    RemoveLevel(level, extra);
  }

  /** A line `date time level extra :message` in the log's format: its
      dictionary holds the timestamp, the level and ":" with the message
      (trailing white space stripped), and it is a log line exactly when the
      extra words are nothing but copies of the level. */
  lemma {:induction false} FormattedLine(d: string, t: string, level: string, extra: string, r: string)
    requires WellFormedHeader(d, t, level) && PlainExtra(extra)
    requires |r| > 0 && !IsDigit(r[0]) && !IsBlank(r)
    ensures var line := Header(d, t, level, extra) + Delimiter + r;
      && GetDict(line) == LogRecord(Some(d + " " + t), Some(level), ":" + StripRight(r))
      && (IsLogLine(line) <==> IsBlank(ReplaceAll(extra, level, "")))
  {
    StripFormattedLine(d, t, level, extra, r);
    var m := StripRight(r);
    var l := Header(d, t, level, extra) + Delimiter + m;
    assert r[0..] == r;
    assert |m| > 0 && m[0] == r[0] && !IsBlank(m);
    FormattedParts(d, t, level, extra, m);
    FormattedRest(d, t, level, extra, m);
    var x := ReplaceAll(extra, level, "");
    BlankPadded(x);
    LevelChars(level);
    LogLineOfParts(Header(d, t, level, extra) + Delimiter + r, l, ":" + m, d + " " + t, level);
  }

  /** `is_log_line` and `get_dict` from the three parts found in the stripped
      line. */
  lemma {:induction false} LogLineOfParts(line: string, l: string, m: string, ts: string, level: string)
    requires Strip(line) == l && GetMessage(l) == m && m != ""
    requires GetTimestamp(l) == Some(ts) && ts != "" && GetLoggingLevel(l) == Some(level) && level != ""
    ensures IsLogLine(line) <==> IsBlank(ReplaceAll(ReplaceAll(ReplaceAll(l, m, ""), ts, ""), level, ""))
    ensures GetDict(line) == LogRecord(Some(ts), Some(level), m)
  {
    StripEmptyIffBlank(ReplaceAll(ReplaceAll(ReplaceAll(l, m, ""), ts, ""), level, ""));
  }

  /** Round trip: a line written as `date time level :message` is a log line
      and `get_dict` gives back the timestamp, the level and the message. */
  lemma {:induction false} FormatParseRoundTrip(d: string, t: string, level: string, r: string)
    requires WellFormedHeader(d, t, level)
    requires |r| > 0 && !IsDigit(r[0]) && !IsBlank(r)
    ensures var line := d + " " + t + " " + level + Delimiter + r;
      && IsLogLine(line)
      && GetDict(line) == LogRecord(Some(d + " " + t), Some(level), ":" + StripRight(r))
  {
    FormattedLine(d, t, level, "", r);
    assert Header(d, t, level, "") == d + " " + t + " " + level;
    assert ReplaceAll("", level, "") == "";
  }

  /** An extra header word that does not contain the level makes the line no
      log line, though `get_dict` still reads it. */
  lemma {:induction false} ExtraWordRejected(d: string, t: string, level: string, w: string, r: string)
    requires WellFormedHeader(d, t, level)
    requires |w| > 0 && !IsSpace(w[0]) && ' ' !in w && ':' !in w && '/' !in w
    requires level[0] !in w
    requires |r| > 0 && !IsDigit(r[0]) && !IsBlank(r)
    ensures var line := Header(d, t, level, " " + w) + Delimiter + r;
      && !IsLogLine(line)
      && GetDict(line) == LogRecord(Some(d + " " + t), Some(level), ":" + StripRight(r))
  {
    assert PlainExtra(" " + w);
    FormattedLine(d, t, level, " " + w, r);
    ExtraWordKept(level, w);
  }

  lemma {:induction false} ExtraWordKept(level: string, w: string)
    requires level in ValidLogLevels && |w| > 0 && !IsSpace(w[0]) && level[0] !in w
    ensures !IsBlank(ReplaceAll(" " + w, level, ""))
  {
    LevelChars(level);
    ReplaceAllMissingChar(" " + w, level, "", level[0]);
    assert (" " + w)[1] == w[0];
  }

  /** A repeated level is removed along with the level itself, so the line
      still counts as a log line. */
  lemma {:induction false} RepeatedLevelAccepted(d: string, t: string, level: string, r: string)
    requires WellFormedHeader(d, t, level)
    requires |r| > 0 && !IsDigit(r[0]) && !IsBlank(r)
    ensures IsLogLine(Header(d, t, level, " " + level) + Delimiter + r)
  {
    RepeatedLevelRemoved(level);
    FormattedLine(d, t, level, " " + level, r);
  }

  lemma {:induction false} RepeatedLevelRemoved(level: string)
    requires level in ValidLogLevels
    ensures ReplaceAll(" " + level, level, "") == " "
    ensures IsBlank(ReplaceAll(" " + level, level, "")) && PlainExtra(" " + level)
  {
    LevelChars(level);
    ReplaceAllPrepend(' ', level, level, "");
    assert level == level + [];
    ReplaceAllFront(level, [], "");
  }

  // ---------------------------------------------------------------------
  // Lines that are rejected

  /** Stripping a line whose header starts with a non-space character keeps
      the header and the delimiter; a blank message disappears entirely. */
  lemma {:induction false} StripDelimitedLine(h: string, r: string) returns (m: string)
    requires |h| > 0 && !IsSpace(h[0])
    ensures Strip(h + Delimiter + r) == h + Delimiter + m
    ensures IsBlank(r) ==> m == []
    ensures !IsBlank(r) ==> m == StripRight(r)
  {
    if IsBlank(r) {
      assert !IsBlank(Delimiter + r) by { assert (Delimiter + r)[1] == ':'; }
      assert h + Delimiter + r == h + (Delimiter + r);
      StripKeepsFront(h, Delimiter + r);
      StripRightBlankTail(Delimiter, r);
      m := [];
    } else {
      assert (h + Delimiter)[0] == h[0];
      StripKeepsFront(h + Delimiter, r);
      m := StripRight(r);
    }
  }

  /** Nothing but white space after the delimiter: no message, no log line. */
  lemma {:induction false} BlankMessageRejected(h: string, r: string)
    requires NoAdjacent(h, ' ', ':') && |h| > 0 && !IsSpace(h[0]) && IsBlank(r)
    ensures !IsLogLine(h + Delimiter + r)
    ensures GetDict(h + Delimiter + r).message == ""
  {
    var m := StripDelimitedLine(h, r);
    DelimitedLine(h, m);
    assert GetMessage(h + Delimiter + m) == "";
  }

  /** A formatted header followed by a blank message: rejected. */
  lemma {:induction false} BlankFormattedRejected(d: string, t: string, level: string, r: string)
    requires WellFormedHeader(d, t, level) && IsBlank(r)
    ensures !IsLogLine(Header(d, t, level, "") + Delimiter + r)
    ensures GetDict(Header(d, t, level, "") + Delimiter + r).message == ""
  {
    HeaderNoDelimiter(d, t, level, "");
    DateChars(d);
    assert Header(d, t, level, "")[0] == d[0];
    BlankMessageRejected(Header(d, t, level, ""), r);
  }

  /** A header without a level: no level, no log line. */
  lemma {:induction false} LevelLessRejected(h: string, r: string)
    requires NoAdjacent(h, ' ', ':') && |h| > 0 && !IsSpace(h[0])
    requires var f := Split(h, " "); forall j :: 0 <= j < |f| ==> f[j] !in ValidLogLevels
    ensures !IsLogLine(h + Delimiter + r)
    ensures GetDict(h + Delimiter + r).logLevel == None
  {
    var m := StripDelimitedLine(h, r);
    DelimitedLine(h, m);
    assert GetLoggingLevel(h + Delimiter + m) == None;
  }

  /** A header without a valid date followed by a valid time: no timestamp,
      no log line. */
  lemma {:induction false} TimestampLessRejected(h: string, r: string)
    requires NoAdjacent(h, ' ', ':') && |h| > 0 && !IsSpace(h[0])
    requires var f := Split(h, " "); forall j :: 0 <= j < |f| - 1 ==> !ValidateTimestamp(f[j], f[j + 1])
    ensures !IsLogLine(h + Delimiter + r)
    ensures GetDict(h + Delimiter + r).timestamp == None
  {
    var m := StripDelimitedLine(h, r);
    DelimitedLine(h, m);
    assert GetTimestamp(h + Delimiter + m) == None;
  }

  /** Two words where the first starts with a digit and has no colon, and
      the second starts with a digit: with a slash in the first and a colon
      in the second neither is a level, so the line is rejected. */
  lemma {:induction false} DateAndTimeOnlyRejected(d: string, t: string, r: string)
    requires |d| > 0 && IsDigit(d[0]) && ' ' !in d && ':' !in d && '/' in d
    requires |t| > 0 && IsDigit(t[0]) && ' ' !in t && ':' in t
    ensures !IsLogLine(d + " " + t + Delimiter + r)
  {
    var h := d + " " + t;
    TwoWords(d, t);
    NotALevel(d);
    NotALevel(t);
    var f := Split(h, " ");
    assert f[0] == d && f[1] == t && |f| == 2;
    assert forall j :: 0 <= j < |f| ==> f[j] !in ValidLogLevels;
    LevelLessRejected(h, r);
  }

  /** A valid timestamp with no level after it: rejected. */
  lemma {:induction false} TimestampOnlyRejected(d: string, t: string, r: string)
    requires IsValidDate(d) && ' ' !in d && IsValidTime(t)
    ensures !IsLogLine(d + " " + t + Delimiter + r)
  {
    DateChars(d);
    TimeChars(t);
    assert ':' in t by { ValidTimeParts(t); }
    DateAndTimeOnlyRejected(d, t, r);
  }

  lemma {:induction false} TwoWords(d: string, t: string)
    requires |d| > 0 && IsDigit(d[0]) && ' ' !in d && ':' !in d && |t| > 0 && IsDigit(t[0]) && ' ' !in t
    ensures NoAdjacent(d + " " + t, ' ', ':') && !IsSpace((d + " " + t)[0])
    ensures Split(d + " " + t, " ") == [d, t]
  {
    TwoWordsSplit(d, t);
    NoAdjacentWithout(d, ' ', ':');
    NoAdjacentWithout(" ", ' ', ':');
    NoAdjacentWithout(t, ' ', ':');
    NoAdjacentJoin(d, " ", ' ', ':');
    NoAdjacentJoin(d + " ", t, ' ', ':');
  }

  lemma {:induction false} TwoWordsSplit(d: string, t: string)
    requires ' ' !in d && ' ' !in t
    ensures Split(d + " " + t, " ") == [d, t]
  {
    SplitAtChar(d, ' ', t);
    SplitNoChar(t, ' ');
  }

  // ---------------------------------------------------------------------
  // The sample lines

  lemma {:induction false} SampleDate()
    ensures IsValidDate("03/11/21")
  {
    TwoDigitsValue('0', '3');
    TwoDigitsValue('1', '1');
    TwoDigitsValue('2', '1');
    TwoDigitDate('0', '3', '1', '1', '2', '1');
  }

  /** `dd/mm/yy` from two digits per field. */
  lemma {:induction false} TwoDigitDate(d0: char, d1: char, m0: char, m1: char, y0: char, y1: char)
    requires DayField([d0, d1]) && MonthField([m0, m1]) && YearField([y0, y1])
    requires DayValue([d0, d1]) <= DaysInMonth(DigitsValue([m0, m1]), FullYear([y0, y1]))
    ensures IsValidDate([d0, d1, '/', m0, m1, '/', y0, y1])
  {
    assert [d0, d1, '/', m0, m1, '/', y0, y1] == [d0, d1] + "/" + [m0, m1] + "/" + [y0, y1];
    DateFromFields([d0, d1], [m0, m1], [y0, y1]);
  }

  lemma {:induction false} SampleDateNoSpace()
    ensures ' ' !in "03/11/21"
  {
  }

  lemma {:induction false} SampleTime()
    ensures IsValidTime("08:51:01")
  {
    TwoDigitsValue('0', '8');
    TwoDigitsValue('5', '1');
    TwoDigitsValue('0', '1');
    TwoDigitTime('0', '8', '5', '1', '0', '1');
  }

  /** `HH:MM:SS` from two digits per field. */
  lemma {:induction false} TwoDigitTime(h0: char, h1: char, m0: char, m1: char, s0: char, s1: char)
    requires HourField([h0, h1]) && MinuteField([m0, m1]) && SecondField([s0, s1])
    ensures IsValidTime([h0, h1, ':', m0, m1, ':', s0, s1])
  {
    assert [h0, h1, ':', m0, m1, ':', s0, s1] == [h0, h1] + ":" + [m0, m1] + ":" + [s0, s1];
    TimeFromFields([h0, h1], [m0, m1], [s0, s1]);
  }

  /** The message of the first line of the sample log. */
  const RsvpMessage: string := ".main: *************** " + "RSVP Agent started ***************"

  /** The first line of the sample log, as the file iterator yields it with
      its newline, is a log line with the dictionary `test_step_2` expects. */
  lemma {:induction false} FirstSampleLine()
    ensures var line := "03/11/21 08:51:01 INFO :" + (RsvpMessage + "\n");
      && IsLogLine(line)
      && GetDict(line) == LogRecord(Some("03/11/21 08:51:01"), Some("INFO"), ":" + RsvpMessage)
  {
    SampleFields();
    RsvpEnds();
    FormatParseRoundTrip("03/11/21", "08:51:01", "INFO", RsvpMessage + "\n");
    SampleHeader();
  }

  lemma {:induction false} SampleFields()
    ensures WellFormedHeader("03/11/21", "08:51:01", "INFO")
  {
    SampleDate();
    SampleDateNoSpace();
    SampleTime();
  }

  lemma {:induction false} RsvpEnds()
    ensures var r := RsvpMessage + "\n"; |r| > 0 && !IsDigit(r[0]) && !IsBlank(r)
    ensures StripRight(RsvpMessage + "\n") == RsvpMessage
  {
    var r := RsvpMessage + "\n";
    assert RsvpMessage[0] == '.' && RsvpMessage[|RsvpMessage| - 1] == '*';
    assert r[0] == '.';
    StripRightBlankTail(RsvpMessage, "\n");
  }

  /** The header of the sample lines, assembled from its parts. */
  lemma {:induction false} SampleHeader()
    ensures "03/11/21 08:51:01" == "03/11/21" + " " + "08:51:01"
    ensures "03/11/21 08:51:01 INFO :" == "03/11/21" + " " + "08:51:01" + " " + "INFO" + Delimiter
  {
  }

  /** A timestamp and a message but no level: rejected. */
  lemma {:induction false} NoLevelSample()
    ensures !IsLogLine("03/11/21 08:51:01 :hello")
  {
    SampleStampWords();
    NoLevelSpelled();
    DateAndTimeOnlyRejected("03/11/21", "08:51:01", "hello");
  }

  /** The date and time words of the samples. */
  lemma {:induction false} SampleStampWords()
    ensures ' ' !in "03/11/21" && ':' !in "03/11/21" && IsDigit("03/11/21"[0]) && '/' in "03/11/21"
    ensures ' ' !in "08:51:01" && IsDigit("08:51:01"[0]) && ':' in "08:51:01"
  {
    assert "03/11/21"[2] == '/' && "08:51:01"[2] == ':';
  }

  /** The level-less sample spelled as its parts. */
  lemma {:induction false} NoLevelSpelled()
    ensures "03/11/21 08:51:01 :hello" == "03/11/21" + " " + "08:51:01" + Delimiter + "hello"
  {
  }

  /** Only a space after the delimiter: no message, rejected, and the
      dictionary has an empty message. */
  lemma {:induction false} BlankMessageSample()
    ensures !IsLogLine("03/11/21 08:51:01 INFO :" + " ")
    ensures GetDict("03/11/21 08:51:01 INFO :" + " ").message == ""
  {
    SampleLevelHeader();
    BlankMessageRejected("03/11/21 08:51:01 INFO", " ");
  }

  /** The header of the samples has no delimiter and starts with a digit. */
  lemma {:induction false} SampleLevelHeader()
    ensures NoAdjacent("03/11/21 08:51:01 INFO", ' ', ':') && !IsSpace("03/11/21 08:51:01 INFO"[0])
    ensures IsBlank(" ")
    ensures "03/11/21 08:51:01 INFO :" == "03/11/21 08:51:01 INFO" + Delimiter
  {
    NoAdjacentWithout("03/11/21 ", ' ', ':');
    NoAdjacentWithout("08:51:01", ' ', ':');
    NoAdjacentWithout(" INFO", ' ', ':');
    NoAdjacentJoin("03/11/21 ", "08:51:01", ' ', ':');
    NoAdjacentJoin("03/11/21 " + "08:51:01", " INFO", ' ', ':');
    assert "03/11/21 08:51:01 INFO" == "03/11/21 " + "08:51:01" + " INFO";
  }

  /** An unknown word in the header: rejected. */
  lemma {:induction false} ExtraWordSample()
    ensures !IsLogLine("03/11/21 08:51:01 INFO EXTRA :msg")
  {
    SampleFields();
    ExtraWordFacts();
    ExtraWordRejected("03/11/21", "08:51:01", "INFO", "EXTRA", "msg");
    ExtraWordSpelled();
  }

  lemma {:induction false} ExtraWordFacts()
    ensures ' ' !in "EXTRA" && ':' !in "EXTRA" && '/' !in "EXTRA" && 'I' !in "EXTRA"
    ensures !IsSpace("EXTRA"[0]) && !IsDigit("msg"[0]) && !IsBlank("msg")
  {
    assert !IsSpace("msg"[0]);
  }

  /** The extra-word sample spelled as a header, the delimiter and the message. */
  lemma {:induction false} ExtraWordSpelled()
    ensures "03/11/21 08:51:01 INFO EXTRA :msg" == Header("03/11/21", "08:51:01", "INFO", " " + "EXTRA") + Delimiter + "msg"
  {
  }
}

=== FILE: numbers.dfy ===
/** ASCII decimal digits and Python's `int()` on strings. */
module Numbers {
  import opened Wrappers
  import opened Strings

  predicate IsDigit(c: char) {
    '0' <= c <= '9'
  }

  function DigitValue(c: char): (r: nat)
    requires IsDigit(c)
    ensures r <= 9
  {
    c as int - '0' as int
  }

  predicate AllDigits(s: string) {
    forall i :: 0 <= i < |s| ==> IsDigit(s[i])
  }

  function Pow10(n: nat): (r: nat)
    ensures r >= 1
  {
    if n == 0 then 1 else 10 * Pow10(n - 1)
  }

  /** The decimal numeral formed by the ASCII digits of `s`, read in order;
      any other character (the underscores `int()` allows) is skipped. */
  function DigitsValue(s: string): nat
    decreases |s|
  {
    if |s| == 0 then 0
    else if IsDigit(s[|s| - 1]) then DigitsValue(s[..|s| - 1]) * 10 + DigitValue(s[|s| - 1])
    else DigitsValue(s[..|s| - 1])
  }

  /** A string of n digits has a value below 10 to the n. */
  lemma {:induction false} DigitsValueBound(s: string)
    requires AllDigits(s)
    ensures DigitsValue(s) < Pow10(|s|)
    decreases |s|
  {
    if |s| > 0 {
      DigitsValueBound(s[..|s| - 1]);
    }
  }

  /** The digit character for a value below ten. */
  function DigitChar(n: nat): (c: char)
    requires n <= 9
    ensures IsDigit(c) && DigitValue(c) == n
  {
    ('0' as int + n) as char
  }

  /** A one- or two-digit string has the value its digits spell. */
  lemma {:induction false} TwoDigitsValue(a: char, b: char)
    requires IsDigit(a) && IsDigit(b)
    ensures DigitsValue([a]) == DigitValue(a)
    ensures DigitsValue([a, b]) == 10 * DigitValue(a) + DigitValue(b)
  {
    assert [a, b][..1] == [a];
    assert [a][..0] == [];
  }

  /** The body `int()` accepts once white space and sign are gone: ASCII digits,
      first and last a digit, underscores only singly between digits. */
  predicate IsDigitGroups(s: string) {
    && |s| > 0 && IsDigit(s[0]) && IsDigit(s[|s| - 1])
    && (forall i :: 0 <= i < |s| ==> IsDigit(s[i]) || s[i] == '_')
    && NoAdjacent(s, '_', '_')
  }

  /** The white space `int()` skips around a numeral. CPython first turns
      every non-ASCII character `str.isspace` accepts into a space, then skips
      ASCII space, tab, line feed, vertical tab, form feed and carriage
      return. The separators U+001C to U+001F are white space to `isspace`
      but not to `int()`. */
  predicate IsIntSpace(c: char) {
    IsSpace(c) && !('\U{1C}' <= c <= '\U{1F}')
  }

  /** `s` without the leading and trailing characters `int()` skips. */
  function StripIntSpace(s: string): (r: string)
    ensures r == [] || (!IsIntSpace(r[0]) && !IsIntSpace(r[|r| - 1]))
    decreases |s|
  {
    if |s| > 0 && IsIntSpace(s[0]) then StripIntSpace(s[1..])
    else if |s| > 0 && IsIntSpace(s[|s| - 1]) then StripIntSpace(s[..|s| - 1])
    else s
  }

  /** What `int()` strips from a blank string leaves a blank string. */
  lemma {:induction false} StripIntSpaceBlank(s: string)
    requires IsBlank(s)
    ensures IsBlank(StripIntSpace(s))
    decreases |s|
  {
    if |s| > 0 && IsIntSpace(s[0]) {
      var t := s[1..];
      forall i | 0 <= i < |t| ensures IsSpace(t[i]) {
        assert t[i] == s[i + 1];
      }
      StripIntSpaceBlank(t);
    } else if |s| > 0 && IsIntSpace(s[|s| - 1]) {
      var t := s[..|s| - 1];
      forall i | 0 <= i < |t| ensures IsSpace(t[i]) {
        assert t[i] == s[i];
      }
      StripIntSpaceBlank(t);
    }
  }

  /** A non-empty string of digits has nothing for `int()` to strip and is
      one digit group. */
  lemma {:induction false} DigitsAreGroups(s: string)
    ensures |s| > 0 && AllDigits(s) ==> StripIntSpace(s) == s && IsDigitGroups(s)
  {
    if |s| > 0 && AllDigits(s) {
      assert !IsIntSpace(s[0]) && !IsIntSpace(s[|s| - 1]);
      forall i | 0 <= i < |s| - 1 ensures !(s[i] == '_' && s[i + 1] == '_') {
        assert IsDigit(s[i]);
      }
    }
  }

  /** `int()` on an already stripped string: an optional sign, then digit groups. */
  function ParseStripped(t: string): (r: Option<int>) {
    var signed := |t| > 0 && (t[0] == '+' || t[0] == '-');
    var body := if signed then t[1..] else t;
    if IsDigitGroups(body) then
      var v: int := DigitsValue(body);
      Some(if signed && t[0] == '-' then -v else v)
    else
      None
  }

  /** Python's `int(s)` for a string `s`: surrounding white space (as
      `IsIntSpace` has it) is ignored,
      one optional `+` or `-` may lead, and the rest must be digit groups;
      None stands for the ValueError `int()` raises otherwise. */
  function ParseInt(s: string): Option<int> {
    ParseStripped(StripIntSpace(s))
  }

  /** A plain string of digits parses to its value; a blank string does not
      parse, whichever of its white-space characters `int()` skips. */
  lemma {:induction false} ParseIntFacts(s: string)
    ensures |s| > 0 && AllDigits(s) ==> ParseInt(s) == Some(DigitsValue(s))
    ensures IsBlank(s) ==> ParseInt(s) == None
  {
    if |s| > 0 && AllDigits(s) {
      DigitsAreGroups(s);
      assert !(s[0] == '+' || s[0] == '-');
    }
    var t := StripIntSpace(s);
    if IsBlank(s) && |t| > 0 {
      StripIntSpaceBlank(s);
      assert IsSpace(t[0]);
      assert !IsDigit(t[0]);
    }
  }

  /** A string whose first character `int()` does not skip keeps that
      character first once its surroundings are stripped. */
  lemma {:induction false} StripIntSpaceKeepsFirst(s: string)
    requires |s| > 0 && !IsIntSpace(s[0])
    ensures |StripIntSpace(s)| > 0 && StripIntSpace(s)[0] == s[0]
    decreases |s|
  {
    if IsIntSpace(s[|s| - 1]) {
      var t := s[..|s| - 1];
      assert |s| > 1;
      assert t[0] == s[0];
      StripIntSpaceKeepsFirst(t);
    }
  }

  /** A string that starts with neither white space `int()` skips, a sign
      nor a digit is not a numeral: `int()` raises. */
  lemma {:induction false} NonNumeralRaises(s: string)
    requires |s| > 0 && !IsIntSpace(s[0])
    requires !IsDigit(s[0]) && s[0] != '+' && s[0] != '-'
    ensures ParseInt(s) == None
  {
    StripIntSpaceKeepsFirst(s);
    var t := StripIntSpace(s);
    assert !IsDigit(t[0]);
  }

  /** `int()` does not skip the separator U+001C: `int("\x1c5")` raises,
      while a leading no-break space is skipped. */
  lemma {:induction false} SeparatorNotSkipped()
    ensures ParseInt(['\U{1C}', '5']) == None
    ensures ParseInt(['\U{A0}', '5']) == Some(5)
  {
    assert StripIntSpace(['\U{1C}', '5']) == ['\U{1C}', '5'];
    assert ['\U{A0}', '5'][1..] == ['5'];
    assert StripIntSpace(['\U{A0}', '5']) == ['5'];
    TwoDigitsValue('5', '5');
  }
}

=== FILE: strings.dfy ===
/** The Python `str` operations the three scripts rely on, over `seq<char>`:
    `isspace`, `strip`, `in`, `split`, `join` and `replace`. */
module Strings {
  import opened Wrappers

  /** Python's `str.isspace` for one character: the Unicode white-space set. */
  predicate IsSpace(c: char) {
    || c == ' '
    || ('\t' <= c <= '\r')
    || ('\U{1C}' <= c <= '\U{1F}')
    || c == '\U{85}' || c == '\U{A0}' || c == '\U{1680}'
    || ('\U{2000}' <= c <= '\U{200A}')
    || c == '\U{2028}' || c == '\U{2029}' || c == '\U{202F}' || c == '\U{205F}' || c == '\U{3000}'
  }

  /** Every character is white space (so `s.strip()` is empty and falsy). */
  predicate IsBlank(s: string) {
    forall i :: 0 <= i < |s| ==> IsSpace(s[i])
  }

  /** `s.lstrip()`: the suffix left after dropping leading white space. */
  function StripLeft(s: string): (r: string)
    ensures |r| <= |s| && r == s[|s| - |r|..]
    ensures IsBlank(s[..|s| - |r|])
    ensures r == [] || !IsSpace(r[0])
    decreases |s|
  {
    if |s| > 0 && IsSpace(s[0]) then
      var r := StripLeft(s[1..]);
      SpaceThenBlank(s, |s| - 1 - |r|);
      assert s[1..][|s| - 1 - |r|..] == s[|s| - |r|..];
      r
    else
      s
  }

  /** A leading space before a blank stretch makes a longer blank stretch. */
  lemma {:induction false} SpaceThenBlank(s: string, n: nat)
    requires 0 < |s| && n < |s| && IsSpace(s[0]) && IsBlank(s[1..][..n])
    ensures IsBlank(s[..n + 1])
  {
    var t := s[..n + 1];
    forall i | 0 <= i < |t| ensures IsSpace(t[i]) {
      if i > 0 { assert t[i] == s[1..][..n][i - 1]; }
    }
  }

  /** A blank stretch before a trailing space makes a longer blank stretch. */
  lemma {:induction false} BlankThenSpace(s: string, n: nat)
    requires 0 < |s| && n < |s| && IsSpace(s[|s| - 1]) && IsBlank(s[..|s| - 1][n..])
    ensures IsBlank(s[n..])
  {
    var t := s[n..];
    forall i | 0 <= i < |t| ensures IsSpace(t[i]) {
      if i < |s| - 1 - n { assert t[i] == s[..|s| - 1][n..][i]; }
    }
  }

  /** `s.rstrip()`: the prefix left after dropping trailing white space. */
  function StripRight(s: string): (r: string)
    ensures |r| <= |s| && r == s[..|r|]
    ensures IsBlank(s[|r|..])
    ensures r == [] || !IsSpace(r[|r| - 1])
    decreases |s|
  {
    if |s| > 0 && IsSpace(s[|s| - 1]) then
      var r := StripRight(s[..|s| - 1]);
      BlankThenSpace(s, |r|);
      assert s[..|s| - 1][..|r|] == s[..|r|];
      r
    else
      s
  }

  /** `s.strip()`: white space dropped from both ends, one character at a
      time. */
  function Strip(s: string): (r: string)
    ensures r == [] || (!IsSpace(r[0]) && !IsSpace(r[|r| - 1]))
    decreases |s|
  {
    if |s| > 0 && IsSpace(s[0]) then Strip(s[1..])
    else if |s| > 0 && IsSpace(s[|s| - 1]) then Strip(s[..|s| - 1])
    else s
  }

  /** `s.strip()` is `s.lstrip().rstrip()`. */
  lemma {:induction false} StripBothEnds(s: string)
    ensures Strip(s) == StripRight(StripLeft(s))
    decreases |s|
  {
    if |s| > 0 && IsSpace(s[0]) {
      StripBothEnds(s[1..]);
    } else if |s| > 0 && IsSpace(s[|s| - 1]) {
      var s' := s[..|s| - 1];
      StripBothEnds(s');
      assert StripLeft(s') == s';
    }
  }

  /** The strip of `s` is the contiguous piece of `s` starting at the returned
      offset, and what lies around it is blank. */
  lemma {:induction false} StripPiece(s: string) returns (a: nat)
    ensures a + |Strip(s)| <= |s| && Strip(s) == s[a..a + |Strip(s)|]
    ensures IsBlank(s[..a]) && IsBlank(s[a + |Strip(s)|..])
  {
    var t := StripLeft(s);
    var r := StripRight(t);
    assert Strip(s) == r by { StripBothEnds(s); }
    a := |s| - |t|;
    assert t == s[a..];
    PieceOfSuffix(s, a, r);
    assert s[a + |r|..] == t[|r|..];
  }

  /** A prefix `r` of the suffix of `s` from `a` is the piece of `s` from `a`,
      and what follows it in the suffix is what follows it in `s`. */
  lemma {:induction false} PieceOfSuffix(s: string, a: nat, r: string)
    requires a <= |s| && |r| <= |s| - a && r == s[a..][..|r|]
    ensures r == s[a..a + |r|] && s[a + |r|..] == s[a..][|r|..]
  {
  }

  /** Stripping leaves nothing exactly when the string is blank. */
  lemma {:induction false} StripEmptyIffBlank(s: string)
    ensures Strip(s) == [] <==> IsBlank(s)
  {
    var r := Strip(s);
    var a := StripPiece(s);
    if r == [] {
      forall i | 0 <= i < |s| ensures IsSpace(s[i]) {
        if i < a { assert s[..a][i] == s[i]; } else { assert s[a..][i - a] == s[i]; }
      }
    } else {
      assert s[a] == r[0];
    }
  }

  /** A string that starts and ends with a non-space character strips to itself. */
  lemma {:induction false} StripUntrimmed(s: string)
    requires |s| > 0 && !IsSpace(s[0]) && !IsSpace(s[|s| - 1])
    ensures Strip(s) == s
  {
  }

  /** Stripping a line whose first character is not white space only trims its end. */
  lemma {:induction false} StripKeepsFront(a: string, b: string)
    requires |a| > 0 && !IsSpace(a[0]) && !IsBlank(b)
    ensures Strip(a + b) == a + StripRight(b)
  {
    StripBothEnds(a + b);
    assert StripLeft(a + b) == a + b;
    StripRightAppend(a, b);
  }

  /** Trailing white space is only ever trimmed from a non-blank tail. */
  lemma {:induction false} StripRightAppend(a: string, b: string)
    requires !IsBlank(b)
    ensures StripRight(a + b) == a + StripRight(b)
    decreases |b|
  {
    if IsSpace(b[|b| - 1]) {
      var b' := b[..|b| - 1];
      assert (a + b)[..|a + b| - 1] == a + b';
      var i :| 0 <= i < |b| && !IsSpace(b[i]);
      assert b'[i] == b[i];
      StripRightAppend(a, b');
    }
  }

  /** `s[..|p|] == p`: Python's `s.startswith(p)`. */
  predicate StartsWith(s: string, p: string) {
    |p| <= |s| && s[..|p|] == p
  }

  /** `p` occurs in `s` starting at index `i`. */
  predicate OccursAt(s: string, p: string, i: nat) {
    i <= |s| && StartsWith(s[i..], p)
  }

  /** Python's `p in s`. */
  predicate Contains(s: string, p: string) {
    exists i :: 0 <= i <= |s| && OccursAt(s, p, i)
  }

  lemma {:induction false} OccursAtTail(s: string, p: string, j: nat)
    requires 1 <= j <= |s|
    ensures OccursAt(s, p, j) <==> OccursAt(s[1..], p, j - 1)
  {
    assert s[1..][j - 1..] == s[j..];
  }

  /** `s.find(p)` as an option: the first index at which `p` occurs. */
  function IndexOf(s: string, p: string): (r: Option<nat>)
    ensures r.Some? <==> Contains(s, p)
    ensures r.Some? ==> r.value <= |s| && OccursAt(s, p, r.value)
    ensures r.Some? ==> forall j :: 0 <= j < r.value ==> !OccursAt(s, p, j)
    decreases |s|
  {
    if StartsWith(s, p) then
      assert OccursAt(s, p, 0);
      Some(0)
    else if s == [] then
      None
    else
      var r := IndexOf(s[1..], p);
      forall j | 1 <= j <= |s| { OccursAtTail(s, p, j); }
      match r
      case None => None
      case Some(k) =>
        assert OccursAt(s, p, k + 1);
        Some(k + 1)
  }

  /** If `p` occurs at `k` and nowhere before, `find` answers `k`. */
  lemma {:induction false} IndexOfIs(s: string, p: string, k: nat)
    requires OccursAt(s, p, k)
    requires forall j :: 0 <= j < k ==> !OccursAt(s, p, j)
    ensures IndexOf(s, p) == Some(k)
  {
  }

  /** `d.join(parts)`. */
  function Join(parts: seq<string>, d: string): string
    decreases |parts|
  {
    if |parts| == 0 then ""
    else if |parts| == 1 then parts[0]
    else parts[0] + d + Join(parts[1..], d)
  }

  /** Python's `s.split(d)` for a non-empty separator: cut at every occurrence,
      scanning left to right. The pieces join back to `s`. */
  function Split(s: string, d: string): (r: seq<string>)
    requires |d| > 0
    ensures |r| >= 1
    ensures Join(r, d) == s
    decreases |s|
  {
    match IndexOf(s, d)
    case None => [s]
    case Some(k) =>
      var rest := Split(s[k + |d|..], d);
      SplitAtFirst(s, d, k);
      JoinCons(s[..k], rest, d);
      [s[..k]] + rest
  }

  /** No piece of a split contains the separator. */
  lemma {:induction false} SplitPiecesLackSeparator(s: string, d: string)
    requires |d| > 0
    ensures forall i :: 0 <= i < |Split(s, d)| ==> !Contains(Split(s, d)[i], d)
    decreases |s|
  {
    match IndexOf(s, d)
    case None =>
    case Some(k) =>
      SplitAtFirst(s, d, k);
      SplitPiecesLackSeparator(s[k + |d|..], d);
      var rest := Split(s[k + |d|..], d);
      assert Split(s, d) == [s[..k]] + rest;
      assert forall i :: 1 <= i < |Split(s, d)| ==> Split(s, d)[i] == rest[i - 1];
  }

  /** The first piece is the text before the first occurrence of the
      separator, and the other pieces join back to the text after it. */
  lemma {:induction false} SplitFirstPiece(s: string, d: string, k: nat)
    requires |d| > 0 && IndexOf(s, d) == Some(k)
    ensures |Split(s, d)| >= 2 && Split(s, d)[0] == s[..k]
    ensures Join(Split(s, d)[1..], d) == s[k + |d|..]
  {
    var rest := Split(s[k + |d|..], d);
    assert Split(s, d) == [s[..k]] + rest;
    assert Split(s, d)[1..] == rest;
  }

  /** The text before the first occurrence of the separator does not contain
      it, and the string is that text, the separator and the rest. */
  lemma {:induction false} SplitAtFirst(s: string, d: string, k: nat)
    requires |d| > 0 && k <= |s| && OccursAt(s, d, k)
    requires forall j :: 0 <= j < k ==> !OccursAt(s, d, j)
    ensures k + |d| <= |s|
    ensures s == s[..k] + d + s[k + |d|..]
    ensures !Contains(s[..k], d)
  {
    assert s[k..] == s[k..][..|d|] + s[k + |d|..];
    forall j | 0 <= j <= k ensures !OccursAt(s[..k], d, j) {
      if j + |d| <= k {
        assert !OccursAt(s, d, j);
        assert s[..k][j..][..|d|] == s[j..][..|d|];
      }
    }
  }

  /** Joining a piece in front of at least one more piece puts the separator between. */
  lemma {:induction false} JoinCons(x: string, rest: seq<string>, d: string)
    requires |rest| >= 1
    ensures Join([x] + rest, d) == x + d + Join(rest, d)
    ensures ([x] + rest)[1..] == rest
  {
    assert ([x] + rest)[1..] == rest;
  }

  /** Cutting at a one-character separator that does not occur in the first piece. */
  lemma {:induction false} SplitAtChar(a: string, c: char, b: string)
    requires c !in a
    ensures Split(a + [c] + b, [c]) == [a] + Split(b, [c])
  {
    var s := a + [c] + b;
    assert OccursAt(s, [c], |a|) by { assert s[|a|..][..1] == [c]; }
    forall j | 0 <= j < |a| ensures !OccursAt(s, [c], j) {
      assert s[j..][..1] == [a[j]];
    }
    IndexOfIs(s, [c], |a|);
    assert s[..|a|] == a;
    assert s[|a| + 1..] == b;
  }

  /** A string without the one-character separator splits to itself. */
  lemma {:induction false} SplitNoChar(a: string, c: char)
    requires c !in a
    ensures Split(a, [c]) == [a]
  {
    forall j | 0 <= j < |a| ensures !OccursAt(a, [c], j) {
      assert a[j..][..1] == [a[j]];
    }
    assert !OccursAt(a, [c], |a|);
  }

  /** Python's `s.replace(pat, rep)`: every non-overlapping occurrence of
      `pat`, found left to right, is replaced; an empty `pat` inserts `rep`
      before every character and at the end. */
  function ReplaceAll(s: string, pat: string, rep: string): string
    decreases |s|
  {
    if |pat| == 0 then
      if s == [] then rep else rep + [s[0]] + ReplaceAll(s[1..], pat, rep)
    else if StartsWith(s, pat) then
      rep + ReplaceAll(s[|pat|..], pat, rep)
    else if s == [] then
      []
    else
      [s[0]] + ReplaceAll(s[1..], pat, rep)
  }

  /** A first character that does not start an occurrence is copied. */
  lemma {:induction false} ReplaceAllCopy(s: string, pat: string, rep: string)
    requires |pat| > 0 && |s| > 0 && !StartsWith(s, pat)
    ensures ReplaceAll(s, pat, rep) == [s[0]] + ReplaceAll(s[1..], pat, rep)
  {
  }

  /** The text before the first occurrence of `pat` is copied unchanged. */
  lemma {:induction false} ReplaceAllSkip(s: string, pat: string, rep: string, k: nat)
    requires |pat| > 0 && k <= |s|
    requires forall j :: 0 <= j < k ==> !OccursAt(s, pat, j)
    ensures ReplaceAll(s, pat, rep) == s[..k] + ReplaceAll(s[k..], pat, rep)
    decreases k
  {
    if k > 0 {
      var u := s[1..];
      assert ReplaceAll(s, pat, rep) == [s[0]] + ReplaceAll(u, pat, rep) by {
        assert s[0..] == s;
        assert !OccursAt(s, pat, 0);
        ReplaceAllCopy(s, pat, rep);
      }
      forall j | 0 <= j < k - 1 ensures !OccursAt(u, pat, j) {
        OccursAtTail(s, pat, j + 1);
      }
      ReplaceAllSkip(u, pat, rep, k - 1);
      ConsSlices(s, k, ReplaceAll(u[k - 1..], pat, rep));
    }
  }

  /** Splitting off the first character commutes with cutting at `k`. */
  lemma {:induction false} ConsSlices(s: string, k: nat, tail: string)
    requires 0 < k <= |s|
    ensures s[1..][k - 1..] == s[k..]
    ensures [s[0]] + (s[1..][..k - 1] + tail) == s[..k] + tail
  {
    assert s[..k] == [s[0]] + s[1..][..k - 1];
  }

  /** Python's identity `s.replace(pat, rep) == rep.join(s.split(pat))`: the
      scanning replacement and the split-then-join agree on every input. */
  lemma {:induction false} ReplaceAllIsJoinOfSplit(s: string, pat: string, rep: string)
    requires |pat| > 0
    ensures ReplaceAll(s, pat, rep) == Join(Split(s, pat), rep)
    decreases |s|
  {
    match IndexOf(s, pat)
    case None =>
      ReplaceAllSkip(s, pat, rep, |s|);
      assert s[|s|..] == [];
      assert s[..|s|] == s;
    case Some(k) =>
      ReplaceAllSkip(s, pat, rep, k);
      var t := s[k..];
      assert StartsWith(t, pat);
      assert t[|pat|..] == s[k + |pat|..];
      ReplaceAllIsJoinOfSplit(s[k + |pat|..], pat, rep);
      var rest := Split(s[k + |pat|..], pat);
      assert Split(s, pat) == [s[..k]] + rest;
      assert ([s[..k]] + rest)[1..] == rest;
  }

  /** Text that does not contain `pat` is left unchanged. */
  lemma {:induction false} ReplaceAllAbsent(s: string, pat: string, rep: string)
    requires |pat| > 0 && !Contains(s, pat)
    ensures ReplaceAll(s, pat, rep) == s
  {
    ReplaceAllIsJoinOfSplit(s, pat, rep);
  }

  /** A pattern with a character the text lacks cannot occur in it. */
  lemma {:induction false} ReplaceAllMissingChar(s: string, pat: string, rep: string, c: char)
    requires c in pat && c !in s
    ensures ReplaceAll(s, pat, rep) == s
  {
    var j :| 0 <= j < |pat| && pat[j] == c;
    forall i | 0 <= i <= |s| ensures !OccursAt(s, pat, i) {
      if i + |pat| <= |s| {
        assert s[i..][..|pat|][j] == s[i + j];
      }
    }
    ReplaceAllAbsent(s, pat, rep);
  }

  /** An occurrence at the very front is replaced and scanning resumes after it. */
  lemma {:induction false} ReplaceAllFront(pat: string, s: string, rep: string)
    requires |pat| > 0
    ensures ReplaceAll(pat + s, pat, rep) == rep + ReplaceAll(s, pat, rep)
  {
    assert (pat + s)[..|pat|] == pat;
    assert (pat + s)[|pat|..] == s;
  }

  /** A leading character that cannot start the pattern is copied. */
  lemma {:induction false} ReplaceAllPrepend(c: char, s: string, pat: string, rep: string)
    requires |pat| > 0 && c != pat[0]
    ensures ReplaceAll([c] + s, pat, rep) == [c] + ReplaceAll(s, pat, rep)
  {
    assert ([c] + s)[1..] == s;
    if |pat| <= |s| + 1 { assert ([c] + s)[..|pat|][0] == c; }
  }

  /** A trailing character that the pattern does not contain is copied. */
  lemma {:induction false} ReplaceAllAppend(s: string, c: char, pat: string, rep: string)
    requires |pat| > 0 && c !in pat
    ensures ReplaceAll(s + [c], pat, rep) == ReplaceAll(s, pat, rep) + [c]
    decreases |s|
  {
    var t := s + [c];
    if StartsWith(t, pat) {
      assert |pat| <= |s| && StartsWith(s, pat) by {
        assert pat[|pat| - 1] == t[|pat| - 1];
        assert s[..|pat|] == t[..|pat|];
      }
      var u := s[|pat|..];
      assert t[|pat|..] == u + [c];
      ReplaceAllAppend(u, c, pat, rep);
      assert ReplaceAll(t, pat, rep) == rep + (ReplaceAll(u, pat, rep) + [c]);
      assert ReplaceAll(s, pat, rep) == rep + ReplaceAll(u, pat, rep);
    } else if s == [] {
      assert t == [c] && t[1..] == [];
      assert ReplaceAll([], pat, rep) == [];
    } else {
      assert !StartsWith(s, pat) by {
        if |pat| <= |s| { assert t[..|pat|] == s[..|pat|]; }
      }
      var u := s[1..];
      assert t[1..] == u + [c] && t[0] == s[0];
      ReplaceAllAppend(u, c, pat, rep);
      assert ReplaceAll(t, pat, rep) == [s[0]] + (ReplaceAll(u, pat, rep) + [c]);
      assert ReplaceAll(s, pat, rep) == [s[0]] + ReplaceAll(u, pat, rep);
    }
  }

  /** No `x` immediately followed by `y`: the two-character pattern is absent. */
  predicate NoAdjacent(s: string, x: char, y: char) {
    forall i :: 0 <= i < |s| - 1 ==> !(s[i] == x && s[i + 1] == y)
  }

  /** With `[x, y]` absent from `a` and `x != y`, the first occurrence of
      `[x, y]` in `a + [x, y] + b` is right after `a`. */
  lemma {:induction false} IndexOfPair(a: string, x: char, y: char, b: string)
    requires NoAdjacent(a, x, y) && x != y
    ensures IndexOf(a + [x, y] + b, [x, y]) == Some(|a|)
  {
    var s := a + [x, y] + b;
    assert s[|a|..][..2] == [x, y];
    forall j | 0 <= j < |a| ensures !OccursAt(s, [x, y], j) {
      assert s[j..][..2] == [s[j], s[j + 1]];
      if j + 1 < |a| { assert a[j] == s[j] && a[j + 1] == s[j + 1]; }
    }
    IndexOfIs(s, [x, y], |a|);
  }

  /** A string without `[x, y]` adjacent does not contain that pair. */
  lemma {:induction false} NoAdjacentNotContains(s: string, x: char, y: char)
    requires NoAdjacent(s, x, y)
    ensures !Contains(s, [x, y])
  {
    forall i | 0 <= i <= |s| ensures !OccursAt(s, [x, y], i) {
      if i + 2 <= |s| { assert s[i..][..2] == [s[i], s[i + 1]]; }
    }
  }

  /** A pair absent from `s` is absent from every piece `s[a..b]`. */
  lemma {:induction false} ContainsInPiece(s: string, p: string, a: nat, b: nat)
    requires a <= b <= |s| && Contains(s[a..b], p)
    ensures Contains(s, p)
  {
    var i :| 0 <= i <= |s[a..b]| && OccursAt(s[a..b], p, i);
    assert |p| <= b - a - i;
    assert s[a..b][i..][..|p|] == p;
    forall k | 0 <= k < |p| ensures s[a + i..][k] == p[k] {
      assert s[a..b][i..][..|p|][k] == s[a + i..][k];
    }
    assert s[a + i..][..|p|] == p;
    assert OccursAt(s, p, a + i);
  }

  /** A string lacking one of the two characters has no such pair. */
  lemma {:induction false} NoAdjacentWithout(s: string, x: char, y: char)
    requires x !in s || y !in s
    ensures NoAdjacent(s, x, y)
  {
    forall i | 0 <= i < |s| - 1 ensures !(s[i] == x && s[i + 1] == y) {
      assert s[i] in s && s[i + 1] in s;
    }
  }

  /** Two strings without the pair, not forming it where they meet, make a
      string without it. */
  lemma {:induction false} NoAdjacentJoin(a: string, b: string, x: char, y: char)
    requires NoAdjacent(a, x, y) && NoAdjacent(b, x, y)
    requires |a| == 0 || |b| == 0 || !(a[|a| - 1] == x && b[0] == y)
    ensures NoAdjacent(a + b, x, y)
  {
    var s := a + b;
    forall i | 0 <= i < |s| - 1 ensures !(s[i] == x && s[i + 1] == y) {
      if i + 1 < |a| {
        assert s[i] == a[i] && s[i + 1] == a[i + 1];
      } else if i + 1 == |a| {
        assert s[i] == a[|a| - 1] && s[i + 1] == b[0];
      } else {
        assert s[i] == b[i - |a|] && s[i + 1] == b[i - |a| + 1];
      }
    }
  }

  /** White space after a non-space end is exactly what `rstrip` removes. */
  lemma {:induction false} StripRightBlankTail(a: string, b: string)
    requires |a| > 0 && !IsSpace(a[|a| - 1]) && IsBlank(b)
    ensures StripRight(a + b) == a
    decreases |b|
  {
    if |b| == 0 {
      assert a + b == a;
    } else {
      var s := a + b;
      assert s[|s| - 1] == b[|b| - 1];
      assert s[..|s| - 1] == a + b[..|b| - 1];
      StripRightBlankTail(a, b[..|b| - 1]);
    }
  }
}

=== FILE: time_format.dfy ===
/** The two `datetime.strptime` formats the scripts accept, written out as
    predicates: `%d/%m/%y` for dates and `%H:%M:%S` for times. Each field
    follows the pattern CPython's `_strptime` compiles for its directive, and
    the values must then make a valid `datetime`. */
module TimeFormat {
  import opened Wrappers
  import opened Strings
  import opened Numbers

  /** One or two ASCII digits with a value of at most `max`. */
  predicate NumberField(s: string, max: nat) {
    1 <= |s| <= 2 && AllDigits(s) && DigitsValue(s) <= max
  }

  /** `%H`: pattern `2[0-3]|[0-1]\d|\d`. */
  predicate HourField(s: string) {
    NumberField(s, 23)
  }

  /** `%M`: pattern `[0-5]\d|\d`. */
  predicate MinuteField(s: string) {
    NumberField(s, 59)
  }

  /** `%S`: pattern `6[0-1]|[0-5]\d|\d`; `datetime` then rejects 60 and 61. */
  predicate SecondField(s: string) {
    NumberField(s, 59)
  }

  /** `strptime(s, "%H:%M:%S")` succeeds: exactly three colon-separated fields. */
  predicate IsValidTime(s: string) {
    var f := Split(s, ":");
    |f| == 3 && HourField(f[0]) && MinuteField(f[1]) && SecondField(f[2])
  }

  /** `%d`: pattern `3[01]|[12]\d|0[1-9]|[1-9]| [1-9]`, so 1 to 31, one or two
      digits, or a space followed by one non-zero digit. */
  predicate DayField(s: string) {
    || (NumberField(s, 31) && DigitsValue(s) >= 1)
    || (|s| == 2 && s[0] == ' ' && '1' <= s[1] <= '9')
  }

  function DayValue(s: string): (r: nat)
    requires DayField(s)
    ensures 1 <= r <= 31
  {
    if s[0] == ' ' then DigitValue(s[1]) else DigitsValue(s)
  }

  /** `%m`: pattern `1[0-2]|0[1-9]|[1-9]`, so 1 to 12. */
  predicate MonthField(s: string) {
    NumberField(s, 12) && DigitsValue(s) >= 1
  }

  /** `%y`: pattern `\d\d`. */
  predicate YearField(s: string) {
    |s| == 2 && AllDigits(s)
  }

  /** `_strptime`'s century rule for `%y`: 69 to 99 are 1969 to 1999, 00 to 68
      are 2000 to 2068. */
  function FullYear(s: string): (y: nat)
    requires YearField(s)
    ensures 1969 <= y <= 2068
  {
    var v := DigitsValue(s);
    DigitsValueBound(s);
    if v <= 68 then 2000 + v else 1900 + v
  }

  predicate IsLeapYear(y: nat) {
    y % 4 == 0 && (y % 100 != 0 || y % 400 == 0)
  }

  function DaysInMonth(month: nat, year: nat): (r: nat)
    requires 1 <= month <= 12
    ensures 28 <= r <= 31
  {
    if month == 2 then (if IsLeapYear(year) then 29 else 28)
    else if month == 4 || month == 6 || month == 9 || month == 11 then 30
    else 31
  }

  /** `strptime(s, "%d/%m/%y")` succeeds: three slash-separated fields whose
      day exists in that month of that year. */
  predicate IsValidDate(s: string) {
    var f := Split(s, "/");
    && |f| == 3 && DayField(f[0]) && MonthField(f[1]) && YearField(f[2])
    && DayValue(f[0]) <= DaysInMonth(DigitsValue(f[1]), FullYear(f[2]))
  }

  /** A two-digit year names a leap year exactly when it is a multiple of four,
      on both sides of the century boundary. */
  lemma {:induction false} LeapYearIffMultipleOfFour(s: string)
    requires YearField(s)
    ensures IsLeapYear(FullYear(s)) <==> DigitsValue(s) % 4 == 0
  {
    DigitsValueBound(s);
  }

  /** Three separated fields, each free of the separator, split back apart. */
  lemma {:induction false} SplitThree(a: string, b: string, c: string, sep: char)
    requires sep !in a && sep !in b && sep !in c
    ensures Split(a + [sep] + b + [sep] + c, [sep]) == [a, b, c]
  {
    assert a + [sep] + b + [sep] + c == a + [sep] + (b + [sep] + c);
    SplitAtChar(a, sep, b + [sep] + c);
    SplitAtChar(b, sep, c);
    SplitNoChar(c, sep);
  }

  /** A time is valid exactly when its three colon-separated fields are. */
  lemma {:induction false} TimeFromFields(h: string, m: string, s: string)
    requires ':' !in h && ':' !in m && ':' !in s
    ensures IsValidTime(h + ":" + m + ":" + s) <==> HourField(h) && MinuteField(m) && SecondField(s)
  {
    SplitThree(h, m, s, ':');
  }

  /** A date is valid exactly when its three slash-separated fields are and
      the day exists in the month. */
  lemma {:induction false} DateFromFields(d: string, m: string, y: string)
    requires '/' !in d && '/' !in m && '/' !in y
    ensures IsValidDate(d + "/" + m + "/" + y) <==>
      && DayField(d) && MonthField(m) && YearField(y)
      && DayValue(d) <= DaysInMonth(DigitsValue(m), FullYear(y))
  {
    SplitThree(d, m, y, '/');
  }

  /** Three pieces joined: the separator between each two. */
  lemma {:induction false} JoinThree(f: seq<string>, sep: string)
    requires |f| == 3
    ensures Join(f, sep) == f[0] + sep + f[1] + sep + f[2]
  {
    assert f[1..][1..] == [f[2]];
    assert Join(f[1..], sep) == f[1] + sep + f[2];
  }

  /** A valid time is its three fields joined by colons. */
  lemma {:induction false} ValidTimeParts(t: string)
    requires IsValidTime(t)
    ensures var f := Split(t, ":"); t == f[0] + ":" + f[1] + ":" + f[2]
  {
    JoinThree(Split(t, ":"), ":");
  }

  /** A valid date is its three fields joined by slashes. */
  lemma {:induction false} ValidDateParts(d: string)
    requires IsValidDate(d)
    ensures var f := Split(d, "/"); d == f[0] + "/" + f[1] + "/" + f[2]
  {
    JoinThree(Split(d, "/"), "/");
  }

  /** The hour, minute and second a valid time names. */
  datatype Clock = Clock(hour: nat, minute: nat, second: nat)

  /** The time `strptime(s, "%H:%M:%S")` reads, or None where it raises
      ValueError. Exactly the valid times parse, to in-range values. */
  function ParseTime(s: string): (r: Option<Clock>)
    ensures r.Some? <==> IsValidTime(s)
    ensures r.Some? ==> r.value.hour <= 23 && r.value.minute <= 59 && r.value.second <= 59
  {
    var f := Split(s, ":");
    if |f| == 3 && HourField(f[0]) && MinuteField(f[1]) && SecondField(f[2]) then
      Some(Clock(DigitsValue(f[0]), DigitsValue(f[1]), DigitsValue(f[2])))
    else
      None
  }

  /** Two zero-padded digits, as `strftime` writes `%H`, `%M` and `%S`. */
  function TwoDigits(n: nat): (r: string)
    requires n <= 99
    ensures |r| == 2 && AllDigits(r) && DigitsValue(r) == n
  {
    var r := [DigitChar(n / 10), DigitChar(n % 10)];
    TwoDigitsValue(r[0], r[1]);
    r
  }

  /** `strftime("%H:%M:%S")` of a clock time. What it writes is a valid time
      and reads back as the same clock. */
  function FormatTime(c: Clock): (r: string)
    requires c.hour <= 23 && c.minute <= 59 && c.second <= 59
    ensures IsValidTime(r)
    ensures ParseTime(r) == Some(c)
  {
    var h := TwoDigits(c.hour);
    var m := TwoDigits(c.minute);
    var s := TwoDigits(c.second);
    SplitThree(h, m, s, ':');
    h + ":" + m + ":" + s
  }
}

=== FILE: time_sum.dfy ===
/** The digit sum of a time string (`sum_current_time` in test_3.py). */
module TimeSum {
  import opened Wrappers
  import opened Strings
  import opened Numbers
  import opened TimeFormat

  /** `[int(num) for num in fields]`, element by element. */
  function ParseFields(fields: seq<string>): (r: seq<Option<int>>)
    ensures |r| == |fields|
    ensures forall i :: 0 <= i < |fields| ==> r[i] == ParseInt(fields[i])
  {
    seq(|fields|, i requires 0 <= i < |fields| => ParseInt(fields[i]))
  }

  /** `sum` of the parsed values, None once one of them is the ValueError. */
  function SumOptions(vals: seq<Option<int>>): Option<int>
    decreases |vals|
  {
    if |vals| == 0 then Some(0)
    else if vals[0].Some? && SumOptions(vals[1..]).Some? then Some(vals[0].value + SumOptions(vals[1..]).value)
    else None
  }

  /** `sum([int(num) for num in fields])`, None when some `int()` raises. */
  function SumInts(fields: seq<string>): Option<int> {
    SumOptions(ParseFields(fields))
  }

  /** The sum is defined exactly when every value is. */
  lemma {:induction false} SumOptionsDefinedIff(vals: seq<Option<int>>)
    ensures SumOptions(vals).Some? <==> forall i :: 0 <= i < |vals| ==> vals[i].Some?
    decreases |vals|
  {
    if |vals| > 0 {
      SumOptionsDefinedIff(vals[1..]);
      assert forall i :: 1 <= i < |vals| ==> vals[1..][i - 1] == vals[i];
    }
  }

  /** The sum raises exactly when some field does not parse. */
  lemma {:induction false} SumIntsDefinedIff(fields: seq<string>)
    ensures SumInts(fields).Some? <==> forall i :: 0 <= i < |fields| ==> ParseInt(fields[i]).Some?
  {
    SumOptionsDefinedIff(ParseFields(fields));
  }

  /** `sum_current_time(time_str, verify_time_input)`. With verification on, a
      string `strptime` rejects gives -1; otherwise the colon-separated fields
      are parsed with `int()` and summed, None standing for the ValueError a
      field that does not parse raises. */
  function SumCurrentTime(timeStr: string, verifyTimeInput: bool): (r: Option<int>)
    ensures verifyTimeInput && !IsValidTime(timeStr) ==> r == Some(-1)
    ensures !verifyTimeInput || IsValidTime(timeStr) ==> r == SumInts(Split(timeStr, ":"))
    ensures IsValidTime(timeStr) ==>
      var c := ParseTime(timeStr).value;
      r.Some? && r.value == c.hour + c.minute + c.second && 0 <= r.value <= 141
  {
    if verifyTimeInput && !IsValidTime(timeStr) then
      Some(-1)
    else
      var fields := Split(timeStr, ":");
      if IsValidTime(timeStr) then
        ValidTimeSum(timeStr);
        SumInts(fields)
      else
        SumInts(fields)
  }

  /** The fields of a valid time sum to its hour, minute and second. */
  lemma {:induction false} ValidTimeSum(timeStr: string)
    requires IsValidTime(timeStr)
    ensures var c := ParseTime(timeStr).value;
      var r := SumInts(Split(timeStr, ":"));
      r.Some? && r.value == c.hour + c.minute + c.second
  {
    SumOfThree(Split(timeStr, ":"));
  }

  /** Three defined values sum to the sum of their values. */
  lemma {:induction false} SumOfThreeValues(vals: seq<Option<int>>)
    requires |vals| == 3 && vals[0].Some? && vals[1].Some? && vals[2].Some?
    ensures SumOptions(vals) == Some(vals[0].value + vals[1].value + vals[2].value)
  {
    assert vals[2..][1..] == [] && vals[1..][1..] == vals[2..];
    assert vals[2..][0] == vals[2] && vals[1..][0] == vals[1];
    assert SumOptions(vals[2..]) == Some(vals[2].value);
    assert SumOptions(vals[1..]) == Some(vals[1].value + vals[2].value);
  }

  /** Three parsed fields sum to the sum of their values. */
  lemma {:induction false} SumOfParsedThree(f: seq<string>, va: int, vb: int, vc: int)
    requires |f| == 3 && ParseInt(f[0]) == Some(va) && ParseInt(f[1]) == Some(vb) && ParseInt(f[2]) == Some(vc)
    ensures SumInts(f) == Some(va + vb + vc)
  {
    SumOfThreeValues(ParseFields(f));
  }

  /** Three fields of digits sum to the sum of their values. */
  lemma {:induction false} SumOfThree(f: seq<string>)
    requires |f| == 3
    requires |f[0]| > 0 && AllDigits(f[0]) && |f[1]| > 0 && AllDigits(f[1]) && |f[2]| > 0 && AllDigits(f[2])
    ensures var r := SumInts(f);
      r.Some? && r.value == DigitsValue(f[0]) + DigitsValue(f[1]) + DigitsValue(f[2])
  {
    ParseIntFacts(f[0]);
    ParseIntFacts(f[1]);
    ParseIntFacts(f[2]);
    SumOfParsedThree(f, DigitsValue(f[0]), DigitsValue(f[1]), DigitsValue(f[2]));
  }

  /** For a valid time the verification flag does not change the result. */
  lemma {:induction false} VerifyFlagIrrelevant(timeStr: string)
    requires IsValidTime(timeStr)
    ensures SumCurrentTime(timeStr, true) == SumCurrentTime(timeStr, false)
  {
  }

  /** The default argument is the current clock time written with
      `strftime("%H:%M:%S")`; for every clock time the sum is that of its
      hour, minute and second, so never negative. */
  lemma {:induction false} ClockTimeSum(c: Clock, verifyTimeInput: bool)
    requires c.hour <= 23 && c.minute <= 59 && c.second <= 59
    ensures var r := SumCurrentTime(FormatTime(c), verifyTimeInput);
      r.Some? && r.value == c.hour + c.minute + c.second && r.value >= 0
  {
  }

  /** Summing the fields of `h:m:s` with verification on: -1 unless the
      fields are valid, their sum otherwise. */
  lemma {:induction false} VerifiedSumOfFields(h: string, m: string, s: string)
    requires ':' !in h && ':' !in m && ':' !in s
    ensures HourField(h) && MinuteField(m) && SecondField(s) ==>
      var r := SumCurrentTime(h + ":" + m + ":" + s, true);
      r.Some? && r.value == DigitsValue(h) + DigitsValue(m) + DigitsValue(s)
    ensures !(HourField(h) && MinuteField(m) && SecondField(s)) ==>
      SumCurrentTime(h + ":" + m + ":" + s, true) == Some(-1)
  {
    TimeFromFields(h, m, s);
    SplitThree(h, m, s, ':');
    var t := h + ":" + m + ":" + s;
    if HourField(h) && MinuteField(m) && SecondField(s) {
      assert Split(t, ":") == [h, m, s];
      assert ParseTime(t) == Some(Clock(DigitsValue(h), DigitsValue(m), DigitsValue(s)));
    }
  }

  /** The valid cases of `test_sum_current_time_valid_inputs`, each also
      unchanged by the verification flag. */
  lemma {:induction false} ValidInputCases()
    ensures ValidCase("01:02:03", 6) && ValidCase("09:12:54", 75) && ValidCase("15:10:59", 84)
    ensures ValidCase("01:10:00", 11) && ValidCase("8:10:59", 77)
    ensures ValidCase("00:00:00", 0) && ValidCase("23:59:59", 141)
  {
    Sum010203();
    Sum091254();
    Sum151059();
    Sum011000();
    Sum81059();
    Sum000000();
    Sum235959();
  }

  lemma {:induction false} Sum010203() ensures ValidCase("01:02:03", 6) { ValidFields("01:02:03", "01", "02", "03", 6); }
  lemma {:induction false} Sum091254() ensures ValidCase("09:12:54", 75) { ValidFields("09:12:54", "09", "12", "54", 75); }
  lemma {:induction false} Sum151059() ensures ValidCase("15:10:59", 84) { ValidFields("15:10:59", "15", "10", "59", 84); }
  lemma {:induction false} Sum011000() ensures ValidCase("01:10:00", 11) { ValidFields("01:10:00", "01", "10", "00", 11); }
  lemma {:induction false} Sum81059() ensures ValidCase("8:10:59", 77) { ValidFields("8:10:59", "8", "10", "59", 77); }
  lemma {:induction false} Sum000000() ensures ValidCase("00:00:00", 0) { ValidFields("00:00:00", "00", "00", "00", 0); }
  lemma {:induction false} Sum235959() ensures ValidCase("23:59:59", 141) { ValidFields("23:59:59", "23", "59", "59", 141); }

  /** The expected outcome of a valid case: the sum `v` with or without
      verification. */
  predicate ValidCase(timeStr: string, v: int) {
    var r := SumCurrentTime(timeStr, true);
    r.Some? && r.value == v && SumCurrentTime(timeStr, false) == r
  }

  lemma {:induction false} ValidFields(t: string, h: string, m: string, s: string, v: int)
    requires t == h + ":" + m + ":" + s
    requires ':' !in h && ':' !in m && ':' !in s
    requires HourField(h) && MinuteField(m) && SecondField(s)
    requires DigitsValue(h) + DigitsValue(m) + DigitsValue(s) == v
    ensures ValidCase(t, v)
  {
    VerifiedSumOfFields(h, m, s);
    TimeFromFields(h, m, s);
  }

  /** The string cases of `test_sum_current_time_invalid_inputs`: malformed
      strings and hours of 24 or more give -1 under verification. */
  lemma {:induction false} InvalidInputCases()
    ensures Rejected("hello") && Rejected("01:02") && Rejected("09")
    ensures Rejected("28:10:59") && Rejected("24:12:08")
  {
    RejectHello();
    Reject0102();
    Reject09();
    Reject281059();
    Reject241208();
  }

  /** With verification on the string gives -1. */
  predicate Rejected(timeStr: string) {
    SumCurrentTime(timeStr, true) == Some(-1)
  }

  lemma {:induction false} RejectHello() ensures Rejected("hello") { SplitNoChar("hello", ':'); }
  lemma {:induction false} Reject09() ensures Rejected("09") { SplitNoChar("09", ':'); }

  lemma {:induction false} Reject0102() ensures Rejected("01:02") {
    SplitAtChar("01", ':', "02");
    SplitNoChar("02", ':');
    assert "01:02" == "01" + [':'] + "02";
  }

  lemma {:induction false} Reject281059() ensures Rejected("28:10:59") { RejectHour("28:10:59", "28", "10", "59"); }
  lemma {:induction false} Reject241208() ensures Rejected("24:12:08") { RejectHour("24:12:08", "24", "12", "08"); }

  lemma {:induction false} RejectHour(t: string, h: string, m: string, s: string)
    requires t == h + ":" + m + ":" + s
    requires ':' !in h && ':' !in m && ':' !in s
    requires !HourField(h)
    ensures Rejected(t)
  {
    VerifiedSumOfFields(h, m, s);
  }

  /** Without verification any string is split and summed: it raises exactly
      when some colon-separated field is one `int()` rejects. */
  lemma {:induction false} UnverifiedMalformedRaises(timeStr: string)
    ensures var f := Split(timeStr, ":");
      SumCurrentTime(timeStr, false).None? <==> exists i :: 0 <= i < |f| && ParseInt(f[i]).None?
  {
    var f := Split(timeStr, ":");
    assert SumCurrentTime(timeStr, false) == SumInts(f);
    SumIntsDefinedIff(f);
    if SumInts(f).None? {
      var i :| 0 <= i < |f| && !ParseInt(f[i]).Some?;
      assert ParseInt(Split(timeStr, ":")[i]).None?;
    } else {
      assert forall i :: 0 <= i < |f| ==> !ParseInt(f[i]).None?;
    }
  }

  /** Without verification three digit fields are summed whether or not
      they form a time. */
  lemma {:induction false} UnverifiedFieldsSum(h: string, m: string, s: string)
    requires ':' !in h && ':' !in m && ':' !in s
    requires |h| > 0 && AllDigits(h) && |m| > 0 && AllDigits(m) && |s| > 0 && AllDigits(s)
    ensures var r := SumCurrentTime(h + ":" + m + ":" + s, false);
      r.Some? && r.value == DigitsValue(h) + DigitsValue(m) + DigitsValue(s)
  {
    var t := h + ":" + m + ":" + s;
    var f := Split(t, ":");
    assert |f| == 3 && f[0] == h && f[1] == m && f[2] == s by {
      assert t == h + [':'] + m + [':'] + s;
      SplitThree(h, m, s, ':');
    }
    SumOfThree(f);
    assert SumCurrentTime(t, false) == SumInts(f);
  }

  /** Without verification, `"99:99:99"` is summed although it is no time. */
  lemma {:induction false} UnverifiedOutOfRangeSums()
    ensures var r := SumCurrentTime("99:99:99", false); r.Some? && r.value == 297
  {
    assert "99" == ['9', '9'];
    TwoDigitsValue('9', '9');
    assert AllDigits("99");
    UnverifiedFieldsSum("99", "99", "99");
    assert "99:99:99" == "99" + ":" + "99" + ":" + "99";
  }

  /** Without verification, `"hello"` raises. */
  lemma {:induction false} UnverifiedHelloRaises()
    ensures SumCurrentTime("hello", false) == None
  {
    assert Split("hello", ":") == ["hello"] by {
      SplitNoChar("hello", ':');
    }
    assert "hello"[0] == 'h';
    NonNumeralRaises("hello");
    UnverifiedMalformedRaises("hello");
    assert Split("hello", ":")[0] == "hello";
  }
}

=== FILE: wrappers.dfy ===
/** The Option datatype used wherever the Python code returns None or fails. */
module Wrappers {

  /** Some(value), or None where Python returns None, returns "" or raises. */
  datatype Option<+T> = None | Some(value: T)
}
